=== FILE: README.md ===
# Merged radar measurements — a Dafny model

This project models the analysis core of a tool that looks for *merged measurements* in
radar data. A merged measurement is two detections that were close together at one
timestamp and became a single larger detection at the next timestamp.

The input is a dict from timestamp to the detections seen then. Each detection has a
position, an area and a polygon outline. The core does five things:

1. It drops detections outside a region polygon, using an even-odd ray-casting test
   (`filter_out_measurements_outside_area`, `point_inside_polygon`).
2. It links detections into tracks with a greedy nearest-neighbour rule
   (`establish_tracks`, `Track`).
3. It collects close pairs: two simultaneous detections less than 20 apart, both with an
   area above 5, each pair with a circle around it (`get_circle`).
4. For each pair, it checks the detections of the next timestamp
   (`get_next_key_in_measurement_dict`, `check_next_measurement`). A detection strictly
   inside the circle and larger than the two together is a candidate. The candidate is kept
   only if a single detection lies within twice the radius.
5. It discards a merge when its current detection and both source detections are found in
   the same track (`check_tracks_for_same_measurement`). `check_for_merge_measurements`
   ties steps 3 to 5 together.

## How the model is built

- **Distances.** The source compares `euclidean_distance(p, q) < t` with bounds t ≥ 0.
  The model works with exact squared distances over `real` (`Geometry.DistSq`) and compares
  them with `t * t`. The circle keeps its squared radius: (0.4 · separation)² = 0.16 ·
  separation².
- **The dict.** It is a sequence of `Frame`s in insertion order. `keys.index(k)` is the
  first frame holding `k`.
- **Absent values and exceptions.** Python's `None` and the caught `ValueError`/`IndexError`
  become `Option`. The `IndexError` that `point_inside_polygon` raises on an empty vertex
  list becomes `Result.Failure(EmptyPolygon)`.
- **Loops.** Each loop of the source is modelled by a recursion whose contract, or a lemma
  beside it, states the loop's invariant. Most are left folds over a prefix length n
  (`ScanNext`, `SeedUpTo`, `LinkUpTo`, `BuildUpTo`, `ScanTracks`, `ClosePairsUpTo`,
  `CollectMerges`). The pair loops (`PairsWith`, `PairsFrom`) recurse over a suffix. The
  list filters (`KeepInside`, `CheckTracksForSameMeasurement`) recurse on the tail. The
  polygon loop is a sequence of edge tests folded by `Parity`.
- **Seeding order.** The builder takes a flag `consistentSeed` that chooses the coordinate
  order of the first timestamp's seed samples (see Findings). With `false` it is
  `establish_tracks` as written (`TrackBuilder.EstablishTracksAsWritten`); with `true` it is
  the corrected builder (`TrackBuilder.EstablishTracks`). `Pipeline.CheckForMergeMeasurements`
  takes the same flag, so `CheckForMergeMeasurements(d, false)` is the source's pipeline and
  `CheckForMergeMeasurements(d, true)` the corrected one. Only the tracks, and so the
  false-positive check, depend on it.
- **Tie-breaking.** It is kept as written: the lowest track index that attains the minimum
  wins, even when that track is stale. `TrackBuilder.StaleTrackWinsTie` shows the
  consequence for a target at (3, 4). With either seeding order, times 0, 1 and 10 give two
  tracks, because the one gap of 4 or more opens a second track. If the target returns at
  time 11, the stale first track wins the tie, the detection cannot extend it, and a third
  track opens. Near the diagonal the swapped seed is still within the link distance, so the
  seeding order does not matter there. Far from the diagonal the as-written order splits
  the target earlier still (see Findings).
- **Ambiguity rule.** Any number of detections may qualify. The last one is the
  candidate. It is discarded when more than one detection lies within twice the radius.
- **Track ownership.** Each match of a sample overwrites the owner recorded for its role,
  so the last match in track-then-sample order decides. A sample is compared as
  (y, x) = (p[0], p[1]). The `if`/`elif` chain gives a sample matching the current
  detection no source role. An owner never found is `None`, and two `None`s compare equal.
  All of this is modelled.

## Model

| member | source | states |
|---|---|---|
| Geometry.DistSq | utilities.py:35-36 | the squared Euclidean distance is never negative and is zero for identical points |
| Geometry.DistSqSymmetric | utilities.py:35-36 | the distance does not depend on the order of its arguments |
| Measurements.IndexOfKey | merged_measurement.py:110-112 | `keys.index`: the first position holding the key, or None exactly when no position holds it |
| Measurements.NextKey | merged_measurement.py:107-115 | a returned key is a key of the dict that directly follows an occurrence of the asked key; an absent key gives None |
| Measurements.NextKeyIsSuccessor | merged_measurement.py:107-115 | with unique keys, the key after the i-th is the (i+1)-th, and there is none after the last |
| Measurements.NextKeyIsLater | merged_measurement.py:107-115 | in a time-ordered dict the next key is strictly later than the asked one |
| Measurements.DetectionsAt | merged_measurement.py:123 | `measurement_dict[k]` is the detection list of a frame holding k |
| Polygon.PointInsidePolygon | utilities.py:58-77 | an empty vertex list fails; otherwise the answer is the parity of the edges the rightward ray crosses |
| Polygon.HorizontalEdgeNeverToggles | utilities.py:69-75 | an edge with equal end heights never flips `inside` |
| Polygon.InsideIsEdgeParity | utilities.py:64-77 | the n+1 loop steps amount to the n closing edges: the degenerate first step never toggles |
| Polygon.OutsideBoundingBox | utilities.py:69-75 | a point at or below every vertex, above every vertex, or right of every vertex is outside |
| Polygon.InsideRotationInvariant | utilities.py:64-77 | rotating the vertex list (same cyclic order) does not change the answer |
| Polygon.SquareCentroidInside | utilities.py:58-77 | the centre of a square is inside |
| Sequences.ParityIsOddCount | utilities.py:65-75 | toggling a flag once per crossing leaves it set exactly when the number of crossings is odd |
| RegionFilter.KeepInside | utilities.py:83-85 | the kept detections of one timestamp are a subsequence of the input; a detection inside occurs as often as in the input, one outside not at all |
| RegionFilter.FilterOutsideArea | utilities.py:79-86 | fails exactly for an empty polygon with something to test; otherwise keeps every key in order and filters each list by the polygon test, keeping each inside detection as often as it occurs |
| Tracks.AddMeasurement | utilities.py:9-10 | appends one sample with the given values; id and earlier samples are unchanged |
| Tracks.SortByTimestamp | utilities.py:12-13 | the same samples (as a multiset), ordered by timestamp, same id |
| Tracks.InsertByTimeSorted | utilities.py:12-13 | inserting a sample into a time-ordered sequence keeps it time-ordered |
| Tracks.SortSamplesStable | utilities.py:12-13 | the sort is stable: samples with equal timestamps keep their order |
| Tracks.CalculateDistance | utilities.py:15-21 | 0 for fewer than two samples, else the length from the first to the last sample |
| Tracks.TotalDistance | utilities.py:23-27 | 0 for fewer than two samples and never negative |
| Tracks.CalculateDistanceAtMostTotal | utilities.py:15-27 | for a length with the triangle inequality, start-to-end never exceeds the distance travelled |
| ClosePairs.GetCircle | merged_measurement.py:100-105 | the centre is equidistant from both points at half their separation, and the radius is 0.8 of that half |
| ClosePairs.MakePair | merged_measurement.py:11-24 | `CloseMeasurementsPair` without outlines: the timestamp, both positions and areas, the `get_circle` circle and the squared separation; what a pair holds is stated by `ClosePairBounds` and `CloseAndLargeFormOnePair` |
| ClosePairs.PairsWith | merged_measurement.py:247-251 | the inner loop for detection i from partner j on emits a pair exactly for each partner b ≥ j that is closer than 20 with both areas above 5 |
| ClosePairs.PairsFrom | merged_measurement.py:246-251 | the outer loop from detection i on emits a pair exactly for each qualifying index pair i ≤ a < b |
| ClosePairs.FramePairs | merged_measurement.py:246-251 | a pair is emitted exactly for index pairs a < b that are closer than 20 with both areas above 5; each carries the frame's timestamp |
| ClosePairs.ClosePairsUpTo | merged_measurement.py:245-251 | the pairs of the first n timestamps are the union of their frames' pairs |
| ClosePairs.ClosePairBounds | merged_measurement.py:245-251 | every pair lies at a key, is separated by less than 20, has radius below 8 and both areas above 5 |
| ClosePairs.CoincidentPairHasZeroRadius | merged_measurement.py:100-105 | two coincident detections give a circle of radius 0 |
| ClosePairs.TooFarOrTooSmallFormNoPair | merged_measurement.py:248-249 | at distance 21, or with one area of 4, no pair is formed |
| ClosePairs.CloseAndLargeFormOnePair | merged_measurement.py:246-251 | at distance 19 with areas 6 and 7 exactly one pair is formed, centred half-way with radius 7.6 |
| MergePredictor.ScanNext | merged_measurement.py:124-132 | the nearby count never exceeds the detections scanned, and a candidate always lies strictly inside the circle with more area than the pair |
| MergePredictor.ScanNextNearby | merged_measurement.py:124-127 | the nearby count is zero exactly when no detection is nearby, and at least two exactly when two are |
| MergePredictor.ScanNextCandidate | merged_measurement.py:124-132 | the candidate is the last qualifying detection, and None exactly when none qualifies |
| MergePredictor.MakeMerge | merged_measurement.py:33-49 | `MergeMeasurements` without outlines: the pair's timestamp, positions, separation and areas with the next timestamp, position and area of the candidate; what a confirmed merge holds is stated by `ConfirmedMergeIsInsideAndAlone` and `Pipeline.ConfirmedPrediction` |
| MergePredictor.CheckNextMeasurement | merged_measurement.py:117-143 | no next key, or no qualifying detection, gives nothing; a qualifying detection gives Ambiguous exactly when a second detection is nearby and Confirmed otherwise, built from the last qualifying detection |
| MergePredictor.ConfirmedMergeIsInsideAndAlone | merged_measurement.py:126-143 | a confirmed merge is at the next key, strictly inside the circle, larger than the pair together, and alone within twice the radius |
| MergePredictor.ConfirmedMergeIsNextDetection | merged_measurement.py:122-132 | a confirmed merge's detection is a detection of the dict at the merge's timestamp |
| MergePredictor.ZeroRadiusNeverMerges | merged_measurement.py:129 | a circle of radius 0 never yields a candidate |
| MergePredictor.PairAtDistanceTenExample | merged_measurement.py:100-143 | the pair of (-5,0) and (5,0) has centre (0,0) and radius 4: a larger detection at (1,1) alone is confirmed; adding one at (7,0) makes it ambiguous |
| TrackBuilder.ArgMin | merged_measurement.py:179 | `xs.index(min(xs))`: the position attains the minimum and no earlier position does |
| TrackBuilder.DecideOutcome | merged_measurement.py:178-208 | extends only the chosen track (first nearest last sample under 15, else first nearest second-to-last under 15) and only if less than 4 time units old; otherwise opens a track |
| TrackBuilder.OpenTrack | merged_measurement.py:186-189 | appends a track with id = counter holding the one sample; the counter advances |
| TrackBuilder.Place | merged_measurement.py:163-208 | placing one detection keeps ids equal to positions and only grows existing tracks |
| TrackBuilder.PlaceOutcome | merged_measurement.py:163-208 | one detection either extends the chosen track, when recent, by its sample, or, when no chosen track is recent, appends a new track holding only that sample |
| TrackBuilder.PlaceAddsItsSample | merged_measurement.py:163-208 | placing a detection adds exactly its sample to the samples of all tracks |
| TrackBuilder.SeedUpTo | merged_measurement.py:153-160 | seeding keeps ids equal to positions, adds exactly one track per detection, and keeps every existing track at its place |
| TrackBuilder.SeedUpToTracks | merged_measurement.py:153-160 | seeding appends, in detection order, one track per detection, with the next id and holding only that detection's seed sample in the seeding order; existing tracks are untouched |
| TrackBuilder.LinkUpTo | merged_measurement.py:163-208 | linking keeps ids equal to positions and only grows existing tracks |
| TrackBuilder.ProcessFrame | merged_measurement.py:152-208 | one timestamp of the outer loop: it seeds when no track exists and links otherwise, keeps ids equal to positions and only grows existing tracks; the samples it adds are stated by `ProcessFrameAddsSamples` |
| TrackBuilder.ProcessFrameAddsSamples | merged_measurement.py:152-208 | one timestamp adds exactly one sample per detection: in the seeding order while there are no tracks, in linked form afterwards |
| TrackBuilder.BuildUpTo | merged_measurement.py:150-209 | `establish_tracks` over the first n timestamps keeps ids equal to positions; placement is stated by `EveryDetectionPlacedOnce`, `TracksOnlyGrow`, `PlaceOutcome` and `TracksExistIffDetections` |
| TrackBuilder.TracksExistIffDetections | merged_measurement.py:152-160 | the builder has opened a track exactly when some detection has been seen, so the seeding branch runs for the first timestamp with detections |
| TrackBuilder.EveryDetectionPlacedOnce | merged_measurement.py:150-209 | in either seeding order, the samples of all tracks are, as a multiset, exactly the samples of all detections: those of the timestamp that opens the first tracks in the seeding order, all others linked |
| TrackBuilder.SampleCountIsDetectionCount | merged_measurement.py:150-209 | in either seeding order the tracks hold as many samples as there are detections |
| TrackBuilder.TracksOnlyGrow | merged_measurement.py:150-209 | later timestamps never reorder, renumber or rewrite earlier tracks; they only append |
| TrackBuilder.EstablishTracks | merged_measurement.py:150-209 | the corrected builder (one coordinate order for all samples); its behaviour is stated by `StationaryTargetFormsOneTrack`, `StaleTrackWinsTie` and `EveryDetectionPlacedOnce` with `true` |
| TrackBuilder.EstablishTracksAsWritten | merged_measurement.py:150-209 | `establish_tracks` as written; its behaviour is stated by `SeedSwapSplitsStationaryTarget`, `StaleTrackWinsTie` and `EveryDetectionPlacedOnce` with `false` |
| TrackBuilder.StationaryTargetFormsOneTrack | merged_measurement.py:150-209 | with the consistent seeding order (the corrected builder `EstablishTracks`), a target at one place at every timestamp, gaps below 4, forms exactly one track; as written it need not (see Findings) |
| TrackBuilder.SeedSwapSplitsStationaryTarget | merged_measurement.py:157 | as written, a stationary target at (0, 100) forms two tracks; with the consistent order it forms one |
| TrackBuilder.StaleFirstTrackForcesNewTrack | merged_measurement.py:178-189 | when the first track ends at the detection but is 4 or more time units old, a new track is opened even if a later track is recent |
| TrackBuilder.StaleTrackWinsTie | merged_measurement.py:150-189 | a target at (3, 4) at times 0, 1, 10, 11 forms three tracks, with the corrected builder and as written |
| FalsePositiveFilter.Step | merged_measurement.py:226-231 | a sample overwrites only the owner of the role its `if`/`elif` chain gives |
| FalsePositiveFilter.ScanTracks | merged_measurement.py:223-231 | the nested track and sample loops for one merge, over the first n tracks; stated by `ScanTracksIsVisit` |
| FalsePositiveFilter.ScanTracksIsVisit | merged_measurement.py:223-231 | the nested loops visit the samples track by track, each track in order |
| FalsePositiveFilter.VisitOwnerUnchanged | merged_measurement.py:223-231 | with no sample of a role in the walk, the owner of that role is unchanged |
| FalsePositiveFilter.VisitOwnerIsLast | merged_measurement.py:223-231 | the last sample with a role in the walk decides the owner of that role |
| FalsePositiveFilter.OwnersOf | merged_measurement.py:219-231 | the three owners of one merge, starting from None, after the scan of all tracks; stated by `OwnerIsLastMatch` |
| FalsePositiveFilter.OwnerIsLastMatch | merged_measurement.py:219-231 | an owner is None exactly when no sample matches; otherwise it is the track of the last match |
| FalsePositiveFilter.CheckTracksForSameMeasurement | merged_measurement.py:218-236 | the kept merges are a subsequence, and a merge is kept exactly when its current owner differs from one of the source owners; a kept merge occurs as often as in the input |
| FalsePositiveFilter.SameTrackIsDropped | merged_measurement.py:219-235 | a merge whose three detections are last matched in one track, or never matched, is dropped |
| FalsePositiveFilter.DifferentTrackRetained | merged_measurement.py:219-235 | a merge whose current detection is last matched in a different track from a source detection is kept |
| Pipeline.Predict | merged_measurement.py:257-259 | `check_next_measurement` at `get_next_key_in_measurement_dict` of the pair's timestamp; a confirmed result is stated by `ConfirmedPrediction` and `MergeComesFromPair` |
| Pipeline.ConfirmedPrediction | merged_measurement.py:245-259 | a close pair's confirmed prediction lies at the next key, strictly inside the circle, larger than the pair together, and copies the pair's timestamp and positions; the pair is closer than 20 with both areas above 5 |
| Pipeline.Predictions | merged_measurement.py:256-259 | the loop produces one prediction per close pair, the k-th for the k-th pair |
| Pipeline.CollectMerges | merged_measurement.py:256-259 | the merged list holds exactly the confirmed predictions, at most one per pair |
| Pipeline.ConfirmedIndices | merged_measurement.py:256-259 | the positions of the confirmed predictions, each once, in increasing order |
| Pipeline.CollectMergesInOrder | merged_measurement.py:256-259 | the i-th collected merge is the merge of the i-th confirmed prediction, so order and repetitions follow the predictions |
| Pipeline.CheckForMergeMeasurements | merged_measurement.py:239-261 | with the as-written seeding (`false`) the tracks are those of `establish_tracks`; no close pair gives no merge; otherwise the retained merges are the false-positive-filtered subsequence of the confirmed predictions, each kept merge as often as it was merged |
| Pipeline.MergedInPairOrder | merged_measurement.py:252-259 | `merged_measurements` lists the merge of every confirmed prediction once, in the order of the close pairs |
| Pipeline.MergeHasPair | merged_measurement.py:256-259 | every merged entry is the confirmed prediction of some close pair |
| Pipeline.MergeComesFromPair | merged_measurement.py:239-261 | every merge comes from a close pair, lies at the next key, inside the circle, and is larger than the pair together |
| Pipeline.MergeIsLater | merged_measurement.py:256-259 | in a time-ordered dict a merge is strictly later than its pair |
| Pipeline.WalkVisitsAllSamples | merged_measurement.py:223-225 | the ownership walk visits exactly the samples of all tracks, in order |
| Pipeline.PairFrameHasTwo | merged_measurement.py:246-251 | a close pair lies at a timestamp with at least two detections |
| Pipeline.ConfirmedInNextFrame | merged_measurement.py:107-132 | with unique keys the detection of a confirmed prediction is in the frame right after the pair's |
| Pipeline.MergeFollowsPairFrame | merged_measurement.py:239-261 | with unique keys every merge's detection sits right after a timestamp with at least two detections |
| Pipeline.DetectionIsTracked | merged_measurement.py:150-234 | a detection that was linked rather than seeded unswapped is matched, as a current detection, by a sample of the tracks |
| Pipeline.CurrentDetectionIsTracked | merged_measurement.py:150-234 | in either seeding order (the as-written one for a dict, whose keys are unique) the current detection of every merge is found in some track |

## Left out

- Plotting, `main`, file handling, the list of processed files, `add_color_scaling`,
  `__repr__` and `print` are left out: they are I/O, colour or console output.
- The polygon outlines (`measurement[3]`, `measurement[4]`) and the colour are left out.
  They are copied into the result objects but read by no decision.
- `number_of_merged_measurements_at_next_timestamp` is left out: it is counted but never
  read.
- Floating point is left out: distances are exact reals, and `np.sqrt` is replaced by
  squared comparisons, so rounding at a threshold is not modelled.
- Geometry.DistSq: it states only the zero-for-identical-points direction. The converse
  (zero only for identical points) needs nonlinear real arithmetic the solver does not
  settle.
- Tracks.CalculateDistance: the Euclidean length is a parameter `length` and is not
  computed, because the model has no square root.
- Tracks.TotalDistance: the result is stated through a lemma relating it to
  `CalculateDistance`, not as a closed-form sum of square roots.
- ClosePairs.FramePairs: it states which pairs occur, not how many times a pair of equal
  detections repeats, nor their order (by first index, then second index). The body fixes
  that order, and it decides the order of the merged list.
- ClosePairs.ClosePairsUpTo: it states membership only, not that the pairs appear frame
  by frame in key order. The body fixes that order, and it decides the order of the
  merged list.
- MergePredictor.CheckNextMeasurement: the merge object carries no polygon outlines.
- The "ambiguous" console notice is left out; it is the `Ambiguous` outcome without output.

## Findings

| source | as written | input that shows it | evidently intended | confidence | as-written member | corrected member |
|---|---|---|---|---|---|---|
| merged_measurement.py:157 | the first timestamp's seed samples are stored as x = measurement[0], y = measurement[1], while every later sample is stored as x = measurement[1], y = measurement[0] (lines 166-167, 183) | one detection at (0, 100) at times 0 and 1: the second is compared as (100, 0) with the seed (0, 100), about 141 apart, and opens a second track | one coordinate order for all samples, so a stationary target stays one track | not executed | TrackBuilder.SeedSwapSplitsStationaryTarget | TrackBuilder.StationaryTargetFormsOneTrack |

=== FILE: close_pairs.dfy ===
/** The close-pair detector of `check_for_merge_measurements` and its `get_circle`:
    every pair i < j of detections at one timestamp that are closer than 20 and both larger
    than area 5 becomes a pair carrying the circle the merge predictor tests against. */
module ClosePairs {
  import opened Geometry
  import opened Measurements

  /** `distance_between_measurements` and `measurement_area_threshold`. */
  const PairDistance: real := 20.0
  const MinArea: real := 5.0

  /** A circle by its centre and squared radius (the radius itself is a square root). */
  datatype Circle = Circle(center: Point, radiusSq: real)

  /** `CloseMeasurementsPair` without its polygon outlines: the pair's timestamp, the two
      positions, their areas, the circle and the squared separation. */
  datatype ClosePair = ClosePair(
    timestamp: real,
    first: Point,
    second: Point,
    area1: real,
    area2: real,
    circle: Circle,
    separationSq: real)

  /** `get_circle`: centred at the midpoint, radius 0.8 times half the separation. */
  function GetCircle(p1: Point, p2: Point): (c: Circle)
    ensures DistSq(c.center, p1) == DistSq(c.center, p2)
    ensures 4.0 * DistSq(c.center, p1) == DistSq(p1, p2)
    ensures c.radiusSq == 0.64 * DistSq(c.center, p1)
    ensures p1 == p2 ==> c.radiusSq == 0.0
  {
    var center := Point((p1.x + p2.x) / 2.0, (p1.y + p2.y) / 2.0);
    var dx, dy := p2.x - p1.x, p2.y - p1.y;
    assert center.x - p1.x == dx / 2.0 && center.y - p1.y == dy / 2.0;
    assert center.x - p2.x == -(dx / 2.0) && center.y - p2.y == -(dy / 2.0);
    assert (-(dx / 2.0)) * (-(dx / 2.0)) == (dx / 2.0) * (dx / 2.0);
    assert (-(dy / 2.0)) * (-(dy / 2.0)) == (dy / 2.0) * (dy / 2.0);
    assert (p1.x - p2.x) * (p1.x - p2.x) == dx * dx;
    assert (p1.y - p2.y) * (p1.y - p2.y) == dy * dy;
    assert DistSq(center, p1) == DistSq(center, p2);
    Circle(center, 0.16 * DistSq(p1, p2))
  }

  predicate IsClose(a: Detection, b: Detection)
  {
    && DistSq(a.pos, b.pos) < PairDistance * PairDistance
    && a.area > MinArea
    && b.area > MinArea
  }

  function MakePair(t: real, a: Detection, b: Detection): ClosePair
  {
    ClosePair(t, a.pos, b.pos, a.area, b.area, GetCircle(a.pos, b.pos), DistSq(a.pos, b.pos))
  }

  /** The inner loop: partners j' >= j of detection i. */
  function PairsWith(t: real, ds: seq<Detection>, i: nat, j: nat): (r: seq<ClosePair>)
    requires i < |ds| && j <= |ds|
    ensures forall p :: p in r <==>
              exists b :: j <= b < |ds| && IsClose(ds[i], ds[b]) && p == MakePair(t, ds[i], ds[b])
    decreases |ds| - j
  {
    if j == |ds| then []
    else (if IsClose(ds[i], ds[j]) then [MakePair(t, ds[i], ds[j])] else []) + PairsWith(t, ds, i, j + 1)
  }

  /** The outer loop from detection i on, each i paired with the detections after it. */
  function PairsFrom(t: real, ds: seq<Detection>, i: nat): (r: seq<ClosePair>)
    requires i <= |ds|
    ensures forall p :: p in r <==>
              exists a, b :: i <= a < b < |ds| && IsClose(ds[a], ds[b]) && p == MakePair(t, ds[a], ds[b])
    decreases |ds| - i
  {
    if i == |ds| then []
    else PairsWith(t, ds, i, i + 1) + PairsFrom(t, ds, i + 1)
  }

  /** The close pairs of one timestamp: exactly the qualifying index pairs a < b, so a
      detection is never paired with itself, and every pair carries that timestamp. */
  function FramePairs(f: Frame): (r: seq<ClosePair>)
    ensures forall p :: p in r <==>
              exists a, b :: 0 <= a < b < |f.detections| && IsClose(f.detections[a], f.detections[b])
                             && p == MakePair(f.timestamp, f.detections[a], f.detections[b])
    ensures forall p :: p in r ==> p.timestamp == f.timestamp
  {
    PairsFrom(f.timestamp, f.detections, 0)
  }

  /** `close_measurements` after the first n timestamps. */
  function ClosePairsUpTo(d: MeasurementDict, n: nat): (r: seq<ClosePair>)
    requires n <= |d|
    ensures forall p :: p in r <==> exists k :: 0 <= k < n && p in FramePairs(d[k])
  {
    if n == 0 then [] else ClosePairsUpTo(d, n - 1) + FramePairs(d[n - 1])
  }

  function AllClosePairs(d: MeasurementDict): seq<ClosePair>
  {
    ClosePairsUpTo(d, |d|)
  }

  /** Every close pair lies at a key of the dict, is separated by less than 20, and so has a
      circle of radius below 0.4 * 20 = 8; the two detections of the pair are both larger
      than the area threshold. */
  lemma ClosePairBounds(d: MeasurementDict, p: ClosePair)
    requires p in AllClosePairs(d)
    ensures p.timestamp in Keys(d)
    ensures p.separationSq < PairDistance * PairDistance
    ensures p.circle.radiusSq < 64.0
    ensures p.area1 > MinArea && p.area2 > MinArea
  {
    var k :| 0 <= k < |d| && p in FramePairs(d[k]);
    var ds := d[k].detections;
    var a, b :| 0 <= a < b < |ds| && IsClose(ds[a], ds[b]) && p == MakePair(d[k].timestamp, ds[a], ds[b]);
    assert Keys(d)[k] == p.timestamp;
  }

  /** Two coincident detections give a pair whose circle has radius 0. */
  lemma CoincidentPairHasZeroRadius(t: real, a: Detection, b: Detection)
    requires a.pos == b.pos
    ensures MakePair(t, a, b).circle.radiusSq == 0.0
  {
  }

  /** At distance 21, or with one area of 4, there is no pair. */
  lemma TooFarOrTooSmallFormNoPair()
    ensures FramePairs(Frame(0.0, [Detection(Point(0.0, 0.0), 6.0), Detection(Point(21.0, 0.0), 7.0)])) == []
    ensures FramePairs(Frame(0.0, [Detection(Point(0.0, 0.0), 4.0), Detection(Point(19.0, 0.0), 7.0)])) == []
  {
  }

  /** At distance 19 with areas 6 and 7 the two detections form exactly one pair, centred
      half-way with radius 0.4 * 19 = 7.6. */
  lemma CloseAndLargeFormOnePair()
    ensures var a, b := Detection(Point(0.0, 0.0), 6.0), Detection(Point(19.0, 0.0), 7.0);
            && FramePairs(Frame(0.0, [a, b])) == [MakePair(0.0, a, b)]
            && MakePair(0.0, a, b).circle == Circle(Point(9.5, 0.0), 57.76)
  {
    var a, b := Detection(Point(0.0, 0.0), 6.0), Detection(Point(19.0, 0.0), 7.0);
    var ds := [a, b];
    assert DistSq(a.pos, b.pos) == 361.0;
    assert IsClose(a, b);
    assert PairsWith(0.0, ds, 0, 1) == [MakePair(0.0, a, b)] + PairsWith(0.0, ds, 0, 2);
    assert PairsFrom(0.0, ds, 1) == PairsWith(0.0, ds, 1, 2) + PairsFrom(0.0, ds, 2);
  }
}

=== FILE: false_positive_filter.dfy ===
/** `check_tracks_for_same_measurement`: a merge is discarded when the current detection and
    both source detections belong to the same track.

    For every merge the source walks all samples of all tracks, track by track, and for each
    sample asks in turn whether it is the current detection, else the first source detection,
    else the second (a sample (x, y) matches the point (p0, p1) when y == p0 and x == p1).
    Each match overwrites the owner recorded for that role, so the last matching sample in the
    walk decides. The merge is kept when the current owner differs from either source owner;
    an owner that was never found is Python's `None`, which equals another `None`. */
module FalsePositiveFilter {
  import opened Geometry
  import opened Wrappers
  import opened Sequences
  import opened Tracks
  import opened MergePredictor

  /** A sample of a track matches a point given in the detections' (measurement[0],
      measurement[1]) order. */
  predicate Matches(s: Sample, p: Point)
  {
    s.y == p.x && s.x == p.y
  }

  datatype Role = Current | Source1 | Source2 | NoRole

  /** The `if` / `elif` / `elif` chain of the inner loop. */
  function RoleOf(s: Sample, m: Merge): Role
  {
    if Matches(s, m.current) then Current
    else if Matches(s, m.prev1) then Source1
    else if Matches(s, m.prev2) then Source2
    else NoRole
  }

  /** `track_id_of_current_measurement` and the two `track_id_of_prev_measurement`s. */
  datatype Owners = Owners(current: Option<nat>, source1: Option<nat>, source2: Option<nat>)

  const NoOwners := Owners(None, None, None)

  function Owner(o: Owners, r: Role): Option<nat>
  {
    match r
    case Current => o.current
    case Source1 => o.source1
    case Source2 => o.source2
    case NoRole => None
  }

  /** One sample of the track with the given id. */
  function Step(o: Owners, id: nat, s: Sample, m: Merge): (r: Owners)
    ensures forall role :: role != NoRole ==>
              Owner(r, role) == if RoleOf(s, m) == role then Some(id) else Owner(o, role)
  {
    match RoleOf(s, m)
    case Current => o.(current := Some(id))
    case Source1 => o.(source1 := Some(id))
    case Source2 => o.(source2 := Some(id))
    case NoRole => o
  }

  /** The inner loop over the samples of one track. */
  function ScanTrack(o: Owners, id: nat, ss: seq<Sample>, m: Merge): Owners
  {
    if |ss| == 0 then o else Step(ScanTrack(o, id, ss[..|ss| - 1], m), id, ss[|ss| - 1], m)
  }

  /** The outer loop over the first n tracks. */
  function ScanTracks(ts: seq<Track>, m: Merge, n: nat): Owners
    requires n <= |ts|
  {
    if n == 0 then NoOwners else ScanTrack(ScanTracks(ts, m, n - 1), ts[n - 1].id, ts[n - 1].samples, m)
  }

  /** A sample together with the id of the track it belongs to. */
  datatype Tagged = Tagged(id: nat, sample: Sample)

  function Tag(id: nat, ss: seq<Sample>): (r: seq<Tagged>)
    ensures |r| == |ss|
    ensures forall i :: 0 <= i < |ss| ==> r[i] == Tagged(id, ss[i])
  {
    seq(|ss|, i requires 0 <= i < |ss| => Tagged(id, ss[i]))
  }

  /** The order in which the source visits samples: track by track, each in its order. */
  function Walk(ts: seq<Track>): seq<Tagged>
  {
    if |ts| == 0 then [] else Walk(ts[..|ts| - 1]) + Tag(ts[|ts| - 1].id, ts[|ts| - 1].samples)
  }

  /** The visit of a walk, one tagged sample at a time. */
  function Visit(o: Owners, xs: seq<Tagged>, m: Merge): Owners
  {
    if |xs| == 0 then o else Step(Visit(o, xs[..|xs| - 1], m), xs[|xs| - 1].id, xs[|xs| - 1].sample, m)
  }

  lemma {:induction false} VisitAppend(o: Owners, xs: seq<Tagged>, ys: seq<Tagged>, m: Merge)
    ensures Visit(o, xs + ys, m) == Visit(Visit(o, xs, m), ys, m)
    decreases |ys|
  {
    if |ys| == 0 {
      assert xs + ys == xs;
    } else {
      var n := |ys|;
      assert (xs + ys)[..|xs + ys| - 1] == xs + ys[..n - 1];
      VisitAppend(o, xs, ys[..n - 1], m);
    }
  }

  lemma {:induction false} ScanTrackIsVisit(o: Owners, id: nat, ss: seq<Sample>, m: Merge)
    ensures ScanTrack(o, id, ss, m) == Visit(o, Tag(id, ss), m)
    decreases |ss|
  {
    if |ss| > 0 {
      ScanTrackIsVisit(o, id, ss[..|ss| - 1], m);
      assert Tag(id, ss)[..|ss| - 1] == Tag(id, ss[..|ss| - 1]);
    }
  }

  /** The nested loops visit the samples in walk order. */
  lemma {:induction false} ScanTracksIsVisit(ts: seq<Track>, m: Merge, n: nat)
    requires n <= |ts|
    ensures ScanTracks(ts, m, n) == Visit(NoOwners, Walk(ts[..n]), m)
  {
    if n > 0 {
      ScanTracksIsVisit(ts, m, n - 1);
      assert ts[..n][..n - 1] == ts[..n - 1];
      ScanTrackIsVisit(ScanTracks(ts, m, n - 1), ts[n - 1].id, ts[n - 1].samples, m);
      VisitAppend(NoOwners, Walk(ts[..n - 1]), Tag(ts[n - 1].id, ts[n - 1].samples), m);
    }
  }

  /** Position j of the walk has the role and no later position has it. */
  predicate LastWithRole(xs: seq<Tagged>, m: Merge, r: Role, j: nat)
  {
    j < |xs| && RoleOf(xs[j].sample, m) == r && forall k :: j < k < |xs| ==> RoleOf(xs[k].sample, m) != r
  }

  /** Without a sample of the role, its owner is unchanged. */
  lemma {:induction false} VisitOwnerUnchanged(o: Owners, xs: seq<Tagged>, m: Merge, r: Role)
    requires r != NoRole
    requires forall k :: 0 <= k < |xs| ==> RoleOf(xs[k].sample, m) != r
    ensures Owner(Visit(o, xs, m), r) == Owner(o, r)
  {
    if |xs| > 0 {
      var n := |xs|;
      assert forall k :: 0 <= k < n - 1 ==> xs[..n - 1][k] == xs[k];
      VisitOwnerUnchanged(o, xs[..n - 1], m, r);
    }
  }

  /** The last sample with a role decides its owner. */
  lemma {:induction false} VisitOwnerIsLast(o: Owners, xs: seq<Tagged>, m: Merge, r: Role, j: nat)
    requires r != NoRole
    requires LastWithRole(xs, m, r, j)
    ensures Owner(Visit(o, xs, m), r) == Some(xs[j].id)
  {
    var n := |xs|;
    var init := xs[..n - 1];
    if j < n - 1 {
      assert forall k :: 0 <= k < n - 1 ==> init[k] == xs[k];
      assert LastWithRole(init, m, r, j);
      VisitOwnerIsLast(o, init, m, r, j);
    }
  }

  /** Some sample has the role, so a last one does. */
  lemma {:induction false} LastWithRoleExists(xs: seq<Tagged>, m: Merge, r: Role, k: nat)
    requires k < |xs| && RoleOf(xs[k].sample, m) == r
    ensures exists j: nat :: LastWithRole(xs, m, r, j)
    decreases |xs| - k
  {
    if !LastWithRole(xs, m, r, k) {
      var k' :| k < k' < |xs| && RoleOf(xs[k'].sample, m) == r;
      LastWithRoleExists(xs, m, r, k');
    }
  }

  /** The owners the source finds for a merge. */
  function OwnersOf(ts: seq<Track>, m: Merge): Owners
  {
    ScanTracks(ts, m, |ts|)
  }

  /** Python's `!=` on `None`-or-id values, two of them compared with `or`. */
  predicate Keep(o: Owners)
  {
    o.current != o.source1 || o.current != o.source2
  }

  /** The owner of a role is the track of the last matching sample in walk order, `None` when
      no sample matches. */
  lemma OwnerIsLastMatch(ts: seq<Track>, m: Merge, r: Role)
    requires r != NoRole
    ensures var xs := Walk(ts);
            && (Owner(OwnersOf(ts, m), r).None? <==> forall k :: 0 <= k < |xs| ==> RoleOf(xs[k].sample, m) != r)
            && forall j: nat :: LastWithRole(xs, m, r, j) ==> Owner(OwnersOf(ts, m), r) == Some(xs[j].id)
  {
    var xs := Walk(ts);
    assert ts[..|ts|] == ts;
    ScanTracksIsVisit(ts, m, |ts|);
    if forall k :: 0 <= k < |xs| ==> RoleOf(xs[k].sample, m) != r {
      VisitOwnerUnchanged(NoOwners, xs, m, r);
    } else {
      var k :| 0 <= k < |xs| && RoleOf(xs[k].sample, m) == r;
      LastWithRoleExists(xs, m, r, k);
      var j: nat :| LastWithRole(xs, m, r, j);
      VisitOwnerIsLast(NoOwners, xs, m, r, j);
    }
    forall j: nat | LastWithRole(xs, m, r, j)
      ensures Owner(OwnersOf(ts, m), r) == Some(xs[j].id)
    {
      VisitOwnerIsLast(NoOwners, xs, m, r, j);
    }
  }

  /** `new_merged_measurements`: the merges kept, in their order. */
  function CheckTracksForSameMeasurement(ms: seq<Merge>, ts: seq<Track>): (r: seq<Merge>)
    ensures IsSubsequence(r, ms)
    ensures forall x :: x in r <==> x in ms && Keep(OwnersOf(ts, x))
    ensures forall x :: multiset(r)[x] == if Keep(OwnersOf(ts, x)) then multiset(ms)[x] else 0
  {
    if |ms| == 0 then []
    else
      assert ms == [ms[0]] + ms[1..];
      if Keep(OwnersOf(ts, ms[0])) then [ms[0]] + CheckTracksForSameMeasurement(ms[1..], ts)
      else CheckTracksForSameMeasurement(ms[1..], ts)
  }

  /** A merge whose three detections are last matched in the same track is dropped, and so
      is one none of whose detections is matched at all. */
  lemma SameTrackIsDropped(ms: seq<Merge>, ts: seq<Track>, m: Merge)
    requires m in ms
    requires var xs := Walk(ts);
             || (forall k :: 0 <= k < |xs| ==> RoleOf(xs[k].sample, m) == NoRole)
             || exists a: nat, b: nat, c: nat :: && LastWithRole(xs, m, Current, a)
                                                 && LastWithRole(xs, m, Source1, b)
                                                 && LastWithRole(xs, m, Source2, c)
                                                 && xs[a].id == xs[b].id == xs[c].id
    ensures m !in CheckTracksForSameMeasurement(ms, ts)
  {
    OwnerIsLastMatch(ts, m, Current);
    OwnerIsLastMatch(ts, m, Source1);
    OwnerIsLastMatch(ts, m, Source2);
  }

  /** A merge whose current detection is last matched in a different track from either source
      detection's last match is kept. */
  lemma DifferentTrackRetained(ms: seq<Merge>, ts: seq<Track>, m: Merge, a: nat, b: nat)
    requires m in ms
    requires var xs := Walk(ts);
             && LastWithRole(xs, m, Current, a)
             && (LastWithRole(xs, m, Source1, b) || LastWithRole(xs, m, Source2, b))
             && xs[a].id != xs[b].id
    ensures m in CheckTracksForSameMeasurement(ms, ts)
  {
    OwnerIsLastMatch(ts, m, Current);
    OwnerIsLastMatch(ts, m, Source1);
    OwnerIsLastMatch(ts, m, Source2);
  }
}

=== FILE: geometry.dfy ===
/** Plane geometry of utilities.py. Every distance test of the system has the form
    `euclidean_distance(p, q) < t` with a non-negative bound t, which holds exactly when the
    squared distance is below t * t; the model therefore works with exact squared distances
    over `real` and never takes a square root. */
module Geometry {

  datatype Point = Point(x: real, y: real)

  /** The square of `euclidean_distance(p, q)`. */
  function DistSq(p: Point, q: Point): (r: real)
    ensures r >= 0.0
    ensures p == q ==> r == 0.0
  {
    var dx := p.x - q.x;
    var dy := p.y - q.y;
    SquareNonNegative(dx);
    SquareNonNegative(dy);
    dx * dx + dy * dy
  }

  /** The distance does not depend on the order of its arguments. */
  lemma DistSqSymmetric(p: Point, q: Point)
    ensures DistSq(p, q) == DistSq(q, p)
  {
  }

  lemma SquareNonNegative(a: real)
    ensures a * a >= 0.0
  {
    if a < 0.0 {
      assert a * a == (-a) * (-a);
    }
  }
}

=== FILE: measurements.dfy ===
/** The input of the core: a mapping from timestamp to the detections seen at that
    timestamp, iterated in insertion (time) order. A Python dict is modelled as the
    sequence of its entries; `keys.index(k)` is the first entry holding key k. */
module Measurements {
  import opened Geometry
  import opened Wrappers

  /** One detection: `measurement[0]` and `measurement[1]` as `pos.x` and `pos.y`,
      `measurement[2]` as `area`. Polygon outline and colour are not read by any decision. */
  datatype Detection = Detection(pos: Point, area: real)

  /** One dict entry: a timestamp and its detections in source order. */
  datatype Frame = Frame(timestamp: real, detections: seq<Detection>)

  type MeasurementDict = seq<Frame>

  function Keys(d: MeasurementDict): (ks: seq<real>)
    ensures |ks| == |d|
    ensures forall i :: 0 <= i < |d| ==> ks[i] == d[i].timestamp
  {
    seq(|d|, i requires 0 <= i < |d| => d[i].timestamp)
  }

  /** What a dict guarantees about its keys. */
  predicate UniqueKeys(d: MeasurementDict)
  {
    forall i, j :: 0 <= i < j < |d| ==> d[i].timestamp != d[j].timestamp
  }

  /** Keys inserted in strictly increasing time order. */
  predicate TimeOrdered(d: MeasurementDict)
  {
    forall i, j :: 0 <= i < j < |d| ==> d[i].timestamp < d[j].timestamp
  }

  /** `keys.index(k)` searching from position `from`: the first position holding k, or None
      where Python raises ValueError. */
  function IndexOfKey(d: MeasurementDict, k: real, from: nat): (r: Option<nat>)
    requires from <= |d|
    ensures r.Some? ==> from <= r.value < |d| && d[r.value].timestamp == k
    ensures r.Some? ==> forall i :: from <= i < r.value ==> d[i].timestamp != k
    ensures r.None? <==> forall i :: from <= i < |d| ==> d[i].timestamp != k
    decreases |d| - from
  {
    if from == |d| then None
    else if d[from].timestamp == k then Some(from)
    else IndexOfKey(d, k, from + 1)
  }

  /** `get_next_key_in_measurement_dict`: the key after k, or None when k is absent
      (ValueError) or is the last key (IndexError). */
  function NextKey(d: MeasurementDict, k: real): (r: Option<real>)
    ensures r.Some? ==> r.value in Keys(d)
    ensures r.Some? ==> exists i :: 0 <= i < |d| - 1 && d[i].timestamp == k && d[i + 1].timestamp == r.value
    ensures k !in Keys(d) ==> r.None?
  {
    match IndexOfKey(d, k, 0)
    case None => None
    case Some(i) => if i + 1 < |d| then Some(d[i + 1].timestamp) else None
  }

  /** `measurement_dict[k]` for a key that is present. */
  function DetectionsAt(d: MeasurementDict, k: real): (ds: seq<Detection>)
    requires k in Keys(d)
    ensures exists i :: 0 <= i < |d| && d[i].timestamp == k && d[i].detections == ds
  {
    var i := IndexOfKey(d, k, 0);
    assert i.Some?;
    d[i.value].detections
  }

  /** With unique keys, the key after the i-th is the (i+1)-th, and there is none after the last. */
  lemma {:induction false} NextKeyIsSuccessor(d: MeasurementDict, i: nat)
    requires UniqueKeys(d)
    requires i < |d|
    ensures NextKey(d, d[i].timestamp) == if i + 1 < |d| then Some(d[i + 1].timestamp) else None
  {
    var j := IndexOfKey(d, d[i].timestamp, 0);
    assert j.Some? && j.value <= i;
    assert j.value == i;
  }

  /** In a time-ordered dict the next key is strictly later. */
  lemma NextKeyIsLater(d: MeasurementDict, k: real)
    requires TimeOrdered(d)
    ensures NextKey(d, k).Some? ==> NextKey(d, k).value > k
  {
  }

  /** Number of detections in the first n frames. */
  function DetectionCount(d: MeasurementDict, n: nat): nat
    requires n <= |d|
  {
    if n == 0 then 0 else DetectionCount(d, n - 1) + |d[n - 1].detections|
  }
}

=== FILE: merge_predictor.dfy ===
/** The merge predictor: `check_next_measurement` tests the detections of the timestamp after
    a close pair against the pair's circle. A detection strictly inside the circle whose area
    exceeds the pair's summed areas is a merge candidate (a later one replaces an earlier one);
    any detection closer to the centre than twice the radius counts as nearby. A candidate is
    kept only when a single detection is nearby. */
module MergePredictor {
  import opened Geometry
  import opened Wrappers
  import opened Measurements
  import opened ClosePairs

  /** `MergeMeasurements` without polygon outlines: the source pair and the detection at the
      next timestamp that the two became. */
  datatype Merge = Merge(
    prevTimestamp: real,
    prev1: Point,
    prev2: Point,
    separationSq: real,
    area1: real,
    area2: real,
    currentTimestamp: real,
    current: Point,
    currentArea: real)

  function MakeMerge(c: ClosePair, t: real, d: Detection): Merge
  {
    Merge(c.timestamp, c.first, c.second, c.separationSq, c.area1, c.area2, t, d.pos, d.area)
  }

  /** Distance to the centre below twice the radius. */
  predicate Nearby(c: ClosePair, d: Detection)
  {
    DistSq(d.pos, c.circle.center) < 4.0 * c.circle.radiusSq
  }

  /** Distance to the centre below the radius. */
  predicate InCircle(c: ClosePair, d: Detection)
  {
    DistSq(d.pos, c.circle.center) < c.circle.radiusSq
  }

  predicate Qualifies(c: ClosePair, d: Detection)
  {
    InCircle(c, d) && d.area > c.area1 + c.area2
  }

  /** The loop state: the length of `next_measurements_to_plot` and the latest candidate. */
  datatype ScanState = ScanState(nearby: nat, candidate: Option<Detection>)

  /** The loop over the first n detections of the next timestamp. */
  function ScanNext(c: ClosePair, ds: seq<Detection>, n: nat): (r: ScanState)
    requires n <= |ds|
    ensures r.nearby <= n
    ensures r.candidate.Some? ==> Qualifies(c, r.candidate.value)
  {
    if n == 0 then ScanState(0, None)
    else
      var s := ScanNext(c, ds, n - 1);
      var d := ds[n - 1];
      ScanState(if Nearby(c, d) then s.nearby + 1 else s.nearby,
                if Qualifies(c, d) then Some(d) else s.candidate)
  }

  /** The nearby count is zero exactly when no detection is nearby, and at least two exactly
      when two are. */
  lemma {:induction false} ScanNextNearby(c: ClosePair, ds: seq<Detection>, n: nat)
    requires n <= |ds|
    ensures ScanNext(c, ds, n).nearby == 0 <==> forall k :: 0 <= k < n ==> !Nearby(c, ds[k])
    ensures ScanNext(c, ds, n).nearby >= 2 <==> exists a, b :: 0 <= a < b < n && Nearby(c, ds[a]) && Nearby(c, ds[b])
  {
    if n > 0 {
      ScanNextNearby(c, ds, n - 1);
      var s := ScanNext(c, ds, n - 1);
      if Nearby(c, ds[n - 1]) && s.nearby == 1 {
        var a :| 0 <= a < n - 1 && Nearby(c, ds[a]);
        assert Nearby(c, ds[a]) && Nearby(c, ds[n - 1]);
      }
    }
  }

  /** The candidate is the last qualifying detection, and there is none exactly when no
      detection qualifies. */
  lemma {:induction false} ScanNextCandidate(c: ClosePair, ds: seq<Detection>, n: nat)
    requires n <= |ds|
    ensures ScanNext(c, ds, n).candidate.None? <==> forall k :: 0 <= k < n ==> !Qualifies(c, ds[k])
    ensures ScanNext(c, ds, n).candidate.Some? ==>
              exists k: nat :: LastQualifying(c, ds, n, k) && ds[k] == ScanNext(c, ds, n).candidate.value
  {
    if n > 0 {
      ScanNextCandidate(c, ds, n - 1);
      var s := ScanNext(c, ds, n - 1);
      if Qualifies(c, ds[n - 1]) {
        assert LastQualifying(c, ds, n, n - 1);
      } else if s.candidate.Some? {
        var k: nat :| LastQualifying(c, ds, n - 1, k) && ds[k] == s.candidate.value;
        assert LastQualifying(c, ds, n, k);
      }
    }
  }

  /** Position k holds a qualifying detection and none after it (among the first n) does. */
  predicate LastQualifying(c: ClosePair, ds: seq<Detection>, n: nat, k: nat)
    requires n <= |ds|
  {
    k < n && Qualifies(c, ds[k]) && forall j :: k < j < n ==> !Qualifies(c, ds[j])
  }

  /** At most one detection is nearby. */
  predicate AtMostOneNearby(c: ClosePair, ds: seq<Detection>)
  {
    forall a, b :: 0 <= a < |ds| && 0 <= b < |ds| && Nearby(c, ds[a]) && Nearby(c, ds[b]) ==> a == b
  }

  /** The outcome the source distinguishes: nothing to report, a candidate discarded as
      ambiguous, or a merge appended to `merged_measurements`. */
  datatype Prediction = NoCandidate | Ambiguous(candidate: Merge) | Confirmed(merge: Merge)

  /** `measurement_dict[next_timestamp]`, or no detections to look at when there is no next
      timestamp. */
  function NextDetections(d: MeasurementDict, next: Option<real>): seq<Detection>
    requires next.Some? ==> next.value in Keys(d)
  {
    if next.Some? then DetectionsAt(d, next.value) else []
  }

  /** `check_next_measurement`. */
  function CheckNextMeasurement(d: MeasurementDict, next: Option<real>, c: ClosePair): (r: Prediction)
    requires next.Some? ==> next.value in Keys(d)
    ensures next.None? ==> r.NoCandidate?
    ensures var ds := NextDetections(d, next);
            r.NoCandidate? <==> forall k :: 0 <= k < |ds| ==> !Qualifies(c, ds[k])
    ensures var ds := NextDetections(d, next);
            r.Ambiguous? <==> (exists k :: 0 <= k < |ds| && Qualifies(c, ds[k])) && !AtMostOneNearby(c, ds)
    ensures var ds := NextDetections(d, next);
            r.Confirmed? <==> (exists k :: 0 <= k < |ds| && Qualifies(c, ds[k])) && AtMostOneNearby(c, ds)
    ensures var ds := NextDetections(d, next);
            !r.NoCandidate? ==> next.Some? && exists k: nat :: (
                                  && LastQualifying(c, ds, |ds|, k)
                                  && (r.Ambiguous? ==> r.candidate == MakeMerge(c, next.value, ds[k]))
                                  && (r.Confirmed? ==> r.merge == MakeMerge(c, next.value, ds[k])))
  {
    var ds := NextDetections(d, next);
    var s := ScanNext(c, ds, |ds|);
    ScanNextNearby(c, ds, |ds|);
    ScanNextCandidate(c, ds, |ds|);
    if s.candidate.Some? && s.nearby > 1 then
      Ambiguous(MakeMerge(c, next.value, s.candidate.value))
    else if s.candidate.None? then
      NoCandidate
    else
      Confirmed(MakeMerge(c, next.value, s.candidate.value))
  }

  /** A confirmed merge's detection lies strictly inside the circle, is larger than the two
      source detections together, sits at the next timestamp, and is the only detection there
      within twice the radius. */
  lemma ConfirmedMergeIsInsideAndAlone(d: MeasurementDict, next: Option<real>, c: ClosePair)
    requires next.Some? ==> next.value in Keys(d)
    requires CheckNextMeasurement(d, next, c).Confirmed?
    ensures var m := CheckNextMeasurement(d, next, c).merge;
            && next == Some(m.currentTimestamp)
            && DistSq(m.current, c.circle.center) < c.circle.radiusSq
            && m.currentArea > c.area1 + c.area2
            && m.prevTimestamp == c.timestamp
    ensures var ds := NextDetections(d, next);
            exists k :: 0 <= k < |ds| && Nearby(c, ds[k]) && forall j :: 0 <= j < |ds| && Nearby(c, ds[j]) ==> j == k
  {
    var ds := NextDetections(d, next);
    var k: nat :| LastQualifying(c, ds, |ds|, k);
    assert Nearby(c, ds[k]);
  }

  /** A confirmed merge's detection is one of the detections at the next timestamp. */
  lemma ConfirmedMergeIsNextDetection(d: MeasurementDict, next: Option<real>, c: ClosePair)
    requires next.Some? ==> next.value in Keys(d)
    requires CheckNextMeasurement(d, next, c).Confirmed?
    ensures var m := CheckNextMeasurement(d, next, c).merge;
            exists i, q :: && 0 <= i < |d| && 0 <= q < |d[i].detections|
                           && d[i].timestamp == m.currentTimestamp && d[i].detections[q].pos == m.current
  {
    var m := CheckNextMeasurement(d, next, c).merge;
    var ds := NextDetections(d, next);
    var q: nat :| LastQualifying(c, ds, |ds|, q) && m == MakeMerge(c, next.value, ds[q]);
    var i :| 0 <= i < |d| && d[i].timestamp == next.value && d[i].detections == ds;
    assert d[i].detections[q].pos == m.current;
  }

  /** A pair whose circle has radius 0 (two coincident detections) never yields a merge. */
  lemma ZeroRadiusNeverMerges(d: MeasurementDict, next: Option<real>, c: ClosePair)
    requires next.Some? ==> next.value in Keys(d)
    requires c.circle.radiusSq == 0.0
    ensures CheckNextMeasurement(d, next, c) == NoCandidate
  {
  }
  /** The pair of (-5, 0) and (5, 0), areas 6 and 7, has its circle at (0, 0) with radius 4:
      one larger detection at (1, 1) alone is a merge; a second detection at (7, 0), within
      twice the radius, makes the outcome ambiguous. */
  lemma PairAtDistanceTenExample()
    ensures var c := MakePair(0.0, Detection(Point(-5.0, 0.0), 6.0), Detection(Point(5.0, 0.0), 7.0));
            var big := Detection(Point(1.0, 1.0), 20.0);
            var other := Detection(Point(7.0, 0.0), 6.0);
            && c.circle == Circle(Point(0.0, 0.0), 16.0)
            && 1.0 in Keys([Frame(1.0, [big])]) && 1.0 in Keys([Frame(1.0, [big, other])])
            && CheckNextMeasurement([Frame(1.0, [big])], Some(1.0), c).Confirmed?
            && CheckNextMeasurement([Frame(1.0, [big, other])], Some(1.0), c).Ambiguous?
  {
    assert DistSq(Point(-5.0, 0.0), Point(5.0, 0.0)) == 100.0;
    var c := ClosePair(0.0, Point(-5.0, 0.0), Point(5.0, 0.0), 6.0, 7.0, Circle(Point(0.0, 0.0), 16.0), 100.0);
    assert MakePair(0.0, Detection(Point(-5.0, 0.0), 6.0), Detection(Point(5.0, 0.0), 7.0)) == c;
    var big := Detection(Point(1.0, 1.0), 20.0);
    var other := Detection(Point(7.0, 0.0), 6.0);
    assert Qualifies(c, big) && Nearby(c, other);
    var d1, d2 := [Frame(1.0, [big])], [Frame(1.0, [big, other])];
    assert Keys(d1)[0] == 1.0 && Keys(d2)[0] == 1.0;
    assert NextDetections(d1, Some(1.0)) == [big];
    assert NextDetections(d2, Some(1.0)) == [big, other];
    assert !AtMostOneNearby(c, [big, other]) by {
      assert Nearby(c, [big, other][0]) && Nearby(c, [big, other][1]);
    }
  }
}

=== FILE: pipeline.dfy ===
/** `check_for_merge_measurements`, the entry point of `MergedMeasurements`: collect the close
    pairs of every timestamp, test each against the detections of the following timestamp,
    and drop the merges whose detections all belong to one track. The tracks are the ones
    established when the object is built, over the same (already area-filtered) dict. */
module Pipeline {
  import opened Geometry
  import opened Wrappers
  import opened Sequences
  import opened Measurements
  import opened Tracks
  import opened ClosePairs
  import opened MergePredictor
  import opened TrackBuilder
  import opened FalsePositiveFilter

  /** `check_next_measurement(get_next_key_in_measurement_dict(c.timestamp), c)`. */
  function Predict(d: MeasurementDict, c: ClosePair): Prediction
  {
    CheckNextMeasurement(d, NextKey(d, c.timestamp), c)
  }

  /** The positions below n of the confirmed predictions, each once, in increasing order. */
  function ConfirmedIndices(ps: seq<Prediction>, n: nat): (ks: seq<nat>)
    requires n <= |ps|
    ensures forall i :: 0 <= i < |ks| ==> ks[i] < n && ps[ks[i]].Confirmed?
    ensures forall i, j :: 0 <= i < j < |ks| ==> ks[i] < ks[j]
    ensures forall k :: 0 <= k < n && ps[k].Confirmed? ==> k in ks
  {
    if n == 0 then []
    else if ps[n - 1].Confirmed? then ConfirmedIndices(ps, n - 1) + [n - 1]
    else ConfirmedIndices(ps, n - 1)
  }

  /** `merged_measurements` after the first n predictions: the confirmed merges, in the
      order of their pairs; ambiguous and empty predictions add nothing. The i-th merge is
      the merge of the i-th confirmed prediction (`CollectMergesInOrder`). */
  function CollectMerges(ps: seq<Prediction>, n: nat): (r: seq<Merge>)
    requires n <= |ps|
    ensures |r| <= n
    ensures forall m :: m in r <==> exists k :: 0 <= k < n && ps[k] == Confirmed(m)
  {
    if n == 0 then []
    else if ps[n - 1].Confirmed? then CollectMerges(ps, n - 1) + [ps[n - 1].merge]
    else CollectMerges(ps, n - 1)
  }

  /** The collected merges are the merges of the confirmed predictions one for one, in the
      order of the predictions, so order and repetitions follow the pairs. */
  lemma {:induction false} CollectMergesInOrder(ps: seq<Prediction>, n: nat)
    requires n <= |ps|
    ensures var r, ks := CollectMerges(ps, n), ConfirmedIndices(ps, n);
            |r| == |ks| && forall i :: 0 <= i < |r| ==> ps[ks[i]] == Confirmed(r[i])
  {
    if n > 0 {
      CollectMergesInOrder(ps, n - 1);
    }
  }

  /** The prediction for every close pair, in order. */
  function Predictions(d: MeasurementDict, cps: seq<ClosePair>): (ps: seq<Prediction>)
    ensures |ps| == |cps|
    ensures forall k :: 0 <= k < |cps| ==> ps[k] == Predict(d, cps[k])
  {
    seq(|cps|, k requires 0 <= k < |cps| => Predict(d, cps[k]))
  }

  /** The attributes the entry point leaves behind. */
  datatype Analysis = Analysis(
    tracks: seq<Track>,
    closePairs: seq<ClosePair>,
    merged: seq<Merge>,
    retained: seq<Merge>)

  /** `check_for_merge_measurements`; `retained` is `new_merged_measurements`. With no close
      pair the source skips both the prediction and the track check. The tracks come from
      `establish_tracks` run with the given seeding order: `false` is the source as written,
      `true` the corrected builder. */
  function CheckForMergeMeasurements(d: MeasurementDict, consistentSeed: bool): (r: Analysis)
    ensures r.tracks == BuildUpTo(d, |d|, consistentSeed).tracks && r.closePairs == AllClosePairs(d)
    ensures r.closePairs == [] ==> r.merged == [] && r.retained == []
    ensures forall m :: m in r.merged <==> exists k :: 0 <= k < |r.closePairs| && Predict(d, r.closePairs[k]) == Confirmed(m)
    ensures IsSubsequence(r.retained, r.merged)
    ensures forall m :: m in r.retained <==> m in r.merged && Keep(OwnersOf(r.tracks, m))
    ensures forall m :: multiset(r.retained)[m] == if Keep(OwnersOf(r.tracks, m)) then multiset(r.merged)[m] else 0
  {
    var tracks := BuildUpTo(d, |d|, consistentSeed).tracks;
    var cps := AllClosePairs(d);
    if cps == [] then Analysis(tracks, cps, [], [])
    else
      var ps := Predictions(d, cps);
      var merged := CollectMerges(ps, |ps|);
      Analysis(tracks, cps, merged, CheckTracksForSameMeasurement(merged, tracks))
  }

  /** `merged_measurements` lists the merge of every confirmed prediction once, in the order
      of the close pairs. */
  lemma MergedInPairOrder(d: MeasurementDict, consistentSeed: bool)
    ensures var r := CheckForMergeMeasurements(d, consistentSeed);
            var ps := Predictions(d, r.closePairs);
            var ks := ConfirmedIndices(ps, |ps|);
            |r.merged| == |ks| && forall i :: 0 <= i < |ks| ==> ps[ks[i]] == Confirmed(r.merged[i])
  {
    var ps := Predictions(d, AllClosePairs(d));
    CollectMergesInOrder(ps, |ps|);
  }

  /** Every reported merge is the confirmed prediction of one of the close pairs. */
  lemma MergeHasPair(d: MeasurementDict, consistentSeed: bool, m: Merge)
    requires m in CheckForMergeMeasurements(d, consistentSeed).merged
    ensures exists c :: c in AllClosePairs(d) && Predict(d, c) == Confirmed(m)
  {
    var cps := AllClosePairs(d);
    var k :| 0 <= k < |cps| && Predict(d, cps[k]) == Confirmed(m);
    assert cps[k] in cps;
  }

  /** What a close pair's confirmed prediction says about the merge. */
  lemma ConfirmedPrediction(d: MeasurementDict, c: ClosePair, m: Merge)
    requires c in AllClosePairs(d) && Predict(d, c) == Confirmed(m)
    ensures && NextKey(d, c.timestamp) == Some(m.currentTimestamp)
            && m.prevTimestamp == c.timestamp && m.prev1 == c.first && m.prev2 == c.second
            && DistSq(m.current, c.circle.center) < c.circle.radiusSq
            && m.currentArea > c.area1 + c.area2
            && c.area1 > MinArea && c.area2 > MinArea
            && c.separationSq < PairDistance * PairDistance
  {
    ConfirmedMergeIsInsideAndAlone(d, NextKey(d, c.timestamp), c);
    ClosePairBounds(d, c);
  }

  /** Every reported merge comes from a close pair of the dict and its detection sits at the
      key right after the pair's, strictly inside the pair's circle, larger than the pair
      together, and alone within twice the radius. */
  lemma MergeComesFromPair(d: MeasurementDict, consistentSeed: bool, m: Merge)
    requires m in CheckForMergeMeasurements(d, consistentSeed).merged
    ensures exists c :: && c in AllClosePairs(d)
                        && NextKey(d, c.timestamp) == Some(m.currentTimestamp)
                        && m.prevTimestamp == c.timestamp && m.prev1 == c.first && m.prev2 == c.second
                        && DistSq(m.current, c.circle.center) < c.circle.radiusSq
                        && m.currentArea > c.area1 + c.area2
                        && c.area1 > MinArea && c.area2 > MinArea
                        && c.separationSq < PairDistance * PairDistance
  {
    MergeHasPair(d, consistentSeed, m);
    var c :| c in AllClosePairs(d) && Predict(d, c) == Confirmed(m);
    ConfirmedPrediction(d, c, m);
  }

  /** In a time-ordered dict a merge is observed strictly after its pair. */
  lemma MergeIsLater(d: MeasurementDict, consistentSeed: bool, m: Merge)
    requires TimeOrdered(d)
    requires m in CheckForMergeMeasurements(d, consistentSeed).merged
    ensures m.currentTimestamp > m.prevTimestamp
  {
    MergeComesFromPair(d, consistentSeed, m);
    var c :| c in AllClosePairs(d) && NextKey(d, c.timestamp) == Some(m.currentTimestamp) && m.prevTimestamp == c.timestamp;
    NextKeyIsLater(d, c.timestamp);
  }

  /** The samples of a walk, without their track ids. */
  function Untag(xs: seq<Tagged>): (ss: seq<Sample>)
    ensures |ss| == |xs|
    ensures forall i :: 0 <= i < |xs| ==> ss[i] == xs[i].sample
  {
    seq(|xs|, i requires 0 <= i < |xs| => xs[i].sample)
  }

  /** The walk of the false-positive check visits exactly the samples of all tracks. */
  lemma {:induction false} WalkVisitsAllSamples(ts: seq<Track>)
    ensures Untag(Walk(ts)) == Flatten(ts)
  {
    if |ts| > 0 {
      var n := |ts|;
      WalkVisitsAllSamples(ts[..n - 1]);
      var tag := Tag(ts[n - 1].id, ts[n - 1].samples);
      assert Untag(Walk(ts)) == Untag(Walk(ts[..n - 1])) + Untag(tag);
      assert Untag(tag) == ts[n - 1].samples;
    }
  }

  /** The linked sample of the j-th detection of frame i is among the samples of the first n
      frames, unless frame i opened the first tracks in the unswapped order. */
  lemma {:induction false} DetectionSampleListed(d: MeasurementDict, n: nat, i: nat, j: nat, consistentSeed: bool)
    requires i < n <= |d| && j < |d[i].detections|
    requires consistentSeed || DetectionCount(d, i) > 0
    ensures SampleOf(d[i].timestamp, d[i].detections[j]) in AllSamples(d, n, consistentSeed)
  {
    var f := d[i];
    assert FrameSamples(f.timestamp, f.detections, true)[j] == SampleOf(f.timestamp, f.detections[j]);
    if i < n - 1 {
      DetectionSampleListed(d, n - 1, i, j, consistentSeed);
    }
  }

  /** A merge's current detection is a detection of the dict at the merge's timestamp. */
  lemma MergeCurrentIsDetection(d: MeasurementDict, consistentSeed: bool, m: Merge)
    requires m in CheckForMergeMeasurements(d, consistentSeed).merged
    ensures exists i, q :: && 0 <= i < |d| && 0 <= q < |d[i].detections|
                           && d[i].timestamp == m.currentTimestamp && d[i].detections[q].pos == m.current
  {
    var cps := AllClosePairs(d);
    var k :| 0 <= k < |cps| && Predict(d, cps[k]) == Confirmed(m);
    ConfirmedMergeIsNextDetection(d, NextKey(d, cps[k].timestamp), cps[k]);
  }

  /** A close pair lies at a frame holding at least two detections. */
  lemma PairFrameHasTwo(d: MeasurementDict, c: ClosePair)
    requires c in AllClosePairs(d)
    ensures exists k :: 0 <= k < |d| && d[k].timestamp == c.timestamp && |d[k].detections| >= 2
  {
    var k :| 0 <= k < |d| && c in FramePairs(d[k]);
    var ds := d[k].detections;
    var a, b :| 0 <= a < b < |ds| && IsClose(ds[a], ds[b]) && c == MakePair(d[k].timestamp, ds[a], ds[b]);
  }

  /** With unique keys, the detection of a confirmed prediction is in the frame right after
      the pair's. */
  lemma ConfirmedInNextFrame(d: MeasurementDict, c: ClosePair, m: Merge, k: nat)
    requires UniqueKeys(d)
    requires k < |d| && d[k].timestamp == c.timestamp && Predict(d, c) == Confirmed(m)
    ensures k + 1 < |d|
    ensures exists i, q :: && i == k + 1 && 0 <= q < |d[i].detections|
                           && d[i].timestamp == m.currentTimestamp && d[i].detections[q].pos == m.current
  {
    NextKeyIsSuccessor(d, k);
    ConfirmedMergeIsInsideAndAlone(d, NextKey(d, c.timestamp), c);
    ConfirmedMergeIsNextDetection(d, NextKey(d, c.timestamp), c);
    var i, q :| && 0 <= i < |d| && 0 <= q < |d[i].detections|
                && d[i].timestamp == m.currentTimestamp && d[i].detections[q].pos == m.current;
    assert i == k + 1;
  }

  /** With unique keys a merge's detection sits in the frame right after a frame holding a
      close pair, so at least two detections come before it. */
  lemma MergeFollowsPairFrame(d: MeasurementDict, consistentSeed: bool, m: Merge)
    requires UniqueKeys(d)
    requires m in CheckForMergeMeasurements(d, consistentSeed).merged
    ensures exists i, q :: && 0 < i < |d| && 0 <= q < |d[i].detections| && |d[i - 1].detections| >= 2
                           && d[i].timestamp == m.currentTimestamp && d[i].detections[q].pos == m.current
  {
    MergeHasPair(d, consistentSeed, m);
    var c :| c in AllClosePairs(d) && Predict(d, c) == Confirmed(m);
    PairIsFollowed(d, c, m);
  }

  /** With unique keys the detection of a confirmed prediction sits in the frame right after
      the pair's, which holds at least two detections. */
  lemma PairIsFollowed(d: MeasurementDict, c: ClosePair, m: Merge)
    requires UniqueKeys(d)
    requires c in AllClosePairs(d) && Predict(d, c) == Confirmed(m)
    ensures exists i, q :: && 0 < i < |d| && 0 <= q < |d[i].detections| && |d[i - 1].detections| >= 2
                           && d[i].timestamp == m.currentTimestamp && d[i].detections[q].pos == m.current
  {
    PairFrameHasTwo(d, c);
    var k :| 0 <= k < |d| && d[k].timestamp == c.timestamp && |d[k].detections| >= 2;
    ConfirmedInNextFrame(d, c, m, k);
    var i, q :| && i == k + 1 && 0 <= q < |d[i].detections|
                && d[i].timestamp == m.currentTimestamp && d[i].detections[q].pos == m.current;
    assert i - 1 == k;
  }

  /** The position of a detection of the dict is matched, as a current detection, by some
      sample of the established tracks, provided the detection was linked rather than seeded
      unswapped. */
  lemma DetectionIsTracked(d: MeasurementDict, consistentSeed: bool, i: nat, q: nat, m: Merge)
    requires i < |d| && q < |d[i].detections| && d[i].detections[q].pos == m.current
    requires consistentSeed || DetectionCount(d, i) > 0
    ensures OwnersOf(BuildUpTo(d, |d|, consistentSeed).tracks, m).current.Some?
  {
    var s := SampleOf(d[i].timestamp, d[i].detections[q]);
    DetectionSampleListed(d, |d|, i, q, consistentSeed);
    EveryDetectionPlacedOnce(d, |d|, consistentSeed);
    var ts := BuildUpTo(d, |d|, consistentSeed).tracks;
    assert s in multiset(Flatten(ts));
    WalkVisitsAllSamples(ts);
    var xs := Walk(ts);
    var w :| 0 <= w < |Untag(xs)| && Untag(xs)[w] == s;
    assert RoleOf(xs[w].sample, m) == Current;
    OwnerIsLastMatch(ts, m, Current);
  }

  /** The current detection of every merge the pipeline reports is found in some track, with
      either seeding order: the check can only discard a merge by finding both source
      detections last in the same track as the current one. A merge's detection is never in
      the frame that opens the first tracks, because the pair frame before it already holds
      detections; the as-written order needs the keys to be unique to see this. */
  lemma CurrentDetectionIsTracked(d: MeasurementDict, consistentSeed: bool, m: Merge)
    requires consistentSeed || UniqueKeys(d)
    requires m in CheckForMergeMeasurements(d, consistentSeed).merged
    ensures OwnersOf(CheckForMergeMeasurements(d, consistentSeed).tracks, m).current.Some?
  {
    if consistentSeed {
      MergeCurrentIsDetection(d, consistentSeed, m);
      var i, q :| && 0 <= i < |d| && 0 <= q < |d[i].detections|
                  && d[i].timestamp == m.currentTimestamp && d[i].detections[q].pos == m.current;
      DetectionIsTracked(d, consistentSeed, i, q, m);
    } else {
      MergeFollowsPairFrame(d, consistentSeed, m);
      var i, q :| && 0 < i < |d| && 0 <= q < |d[i].detections| && |d[i - 1].detections| >= 2
                  && d[i].timestamp == m.currentTimestamp && d[i].detections[q].pos == m.current;
      assert DetectionCount(d, i) >= |d[i - 1].detections|;
      DetectionIsTracked(d, consistentSeed, i, q, m);
    }
  }
}

=== FILE: polygon.dfy ===
/** `point_inside_polygon`: even-odd ray casting against an implicitly closed polygon.
    The loop walks n + 1 steps; step 0 is the degenerate edge from vertex 0 to itself and
    step i >= 1 is the edge from vertex i - 1 to vertex i mod n, so after the first step the
    walk covers each of the n edges of the ring exactly once. */
module Polygon {
  import opened Geometry
  import opened Wrappers
  import opened Sequences

  /** The only way the function can fail: `vertices[0]` of an empty list raises IndexError. */
  datatype PolygonError = EmptyPolygon

  type Edge = (Point, Point)

  function Min(a: real, b: real): real { if a <= b then a else b }
  function Max(a: real, b: real): real { if a >= b then a else b }

  /** The x coordinate where the horizontal line at height y meets the line through a and b. */
  function XIntersection(y: real, a: Point, b: Point): real
    requires a.y != b.y
  {
    (y - a.y) * (b.x - a.x) / (b.y - a.y) + a.x
  }

  /** Whether the edge from a to b toggles `inside` for pt. The intersection is only computed
      for a non-horizontal edge; a horizontal edge never passes the two height tests. */
  predicate Toggles(pt: Point, a: Point, b: Point)
  {
    && pt.y > Min(a.y, b.y)
    && pt.y <= Max(a.y, b.y)
    && pt.x <= Max(a.x, b.x)
    && (a.x == b.x || (a.y != b.y && pt.x <= XIntersection(pt.y, a, b)))
  }

  /** (i + 1) mod n for a position i of a ring of n vertices. */
  function Succ(i: nat, n: nat): (j: nat)
    requires i < n
    ensures j < n
  {
    if i + 1 < n then i + 1 else 0
  }

  /** The edges of the ring: vertex i to vertex (i + 1) mod n. */
  function Edges(vs: seq<Point>): (es: seq<Edge>)
    ensures |es| == |vs|
  {
    seq(|vs|, i requires 0 <= i < |vs| => (vs[i], vs[Succ(i, |vs|)]))
  }

  /** The (p1, p2) pairs of the loop, in loop order: step 0 is (vertex 0, vertex 0) and step
      i >= 1 is (vertex i - 1, vertex i mod n). */
  function Steps(vs: seq<Point>): (ss: seq<Edge>)
    requires 0 < |vs|
    ensures |ss| == |vs| + 1
    ensures ss[0] == (vs[0], vs[0])
    ensures forall i :: 1 <= i <= |vs| ==> ss[i] == (vs[i - 1], vs[if i < |vs| then i else 0])
  {
    [(vs[0], vs[0])] + Edges(vs)
  }

  /** The toggle decision of each edge, in order. */
  function TogglesOf(pt: Point, es: seq<Edge>): (bs: seq<bool>)
    ensures |bs| == |es|
  {
    seq(|es|, i requires 0 <= i < |es| => Toggles(pt, es[i].0, es[i].1))
  }

  /** The ray-casting verdict for a non-empty vertex list: `inside` flipped once per
      toggling step. */
  function Inside(pt: Point, vs: seq<Point>): bool
    requires 0 < |vs|
  {
    Parity(TogglesOf(pt, Steps(vs)))
  }

  /** `point_inside_polygon`, raising on an empty vertex list. */
  function PointInsidePolygon(pt: Point, vs: seq<Point>): (r: Result<bool, PolygonError>)
    ensures r.Failure? <==> |vs| == 0
    ensures r.Success? ==> r.value == Inside(pt, vs)
  {
    if |vs| == 0 then Failure(EmptyPolygon) else Success(Inside(pt, vs))
  }

  /** A horizontal edge, and in particular the degenerate first step, never toggles. */
  lemma HorizontalEdgeNeverToggles(pt: Point, a: Point, b: Point)
    requires a.y == b.y
    ensures !Toggles(pt, a, b)
  {
  }

  lemma TogglesOfAppend(pt: Point, a: seq<Edge>, b: seq<Edge>)
    ensures TogglesOf(pt, a + b) == TogglesOf(pt, a) + TogglesOf(pt, b)
  {
  }

  /** The verdict is the parity of the number of ring edges that toggle. */
  lemma InsideIsEdgeParity(pt: Point, vs: seq<Point>)
    requires 0 < |vs|
    ensures Inside(pt, vs) == Odd(CountTrue(TogglesOf(pt, Edges(vs))))
  {
    HorizontalEdgeNeverToggles(pt, vs[0], vs[0]);
    TogglesOfAppend(pt, [(vs[0], vs[0])], Edges(vs));
    var first := TogglesOf(pt, [(vs[0], vs[0])]);
    assert first == [false];
    CountTrueAppend(first, TogglesOf(pt, Edges(vs)));
    ParityIsOddCount(TogglesOf(pt, Steps(vs)));
  }

  /** A point that no edge can toggle for is outside: one at or below every vertex, one above
      every vertex, or one to the right of every vertex. */
  lemma OutsideBoundingBox(pt: Point, vs: seq<Point>)
    requires 0 < |vs|
    requires || (forall i :: 0 <= i < |vs| ==> pt.y <= vs[i].y)
             || (forall i :: 0 <= i < |vs| ==> pt.y > vs[i].y)
             || (forall i :: 0 <= i < |vs| ==> pt.x > vs[i].x)
    ensures !Inside(pt, vs)
  {
    InsideIsEdgeParity(pt, vs);
    var es := Edges(vs);
    var bs := TogglesOf(pt, es);
    forall i | 0 <= i < |vs|
      ensures !bs[i]
    {
      assert es[i] == (vs[i], vs[Succ(i, |vs|)]);
    }
  }

  function Rotate(vs: seq<Point>, r: nat): seq<Point>
    requires r <= |vs|
  {
    vs[r..] + vs[..r]
  }

  /** Rotating the vertex list by one rotates the ring's edge list by one. */
  lemma EdgesRotateByOne(vs: seq<Point>)
    requires 0 < |vs|
    ensures Edges(Rotate(vs, 1)) == Edges(vs)[1..] + [Edges(vs)[0]]
  {
    var n := |vs|;
    var w := Rotate(vs, 1);
    var a := Edges(w);
    var b := Edges(vs)[1..] + [Edges(vs)[0]];
    forall i | 0 <= i < n
      ensures a[i] == b[i]
    {
      if i < n - 1 {
        assert b[i] == Edges(vs)[i + 1];
      } else {
        assert b[i] == Edges(vs)[0];
      }
    }
    assert |a| == |b|;
  }

  /** Each edge toggles independently of where the walk starts, so rotating the vertex list
      (same cyclic order) does not change the verdict. */
  lemma {:induction false} InsideRotationInvariant(pt: Point, vs: seq<Point>, r: nat)
    requires 0 < |vs| && r <= |vs|
    ensures Inside(pt, Rotate(vs, r)) == Inside(pt, vs)
  {
    if r == 0 {
      assert Rotate(vs, 0) == vs;
    } else {
      InsideRotationInvariant(pt, vs, r - 1);
      var u := Rotate(vs, r - 1);
      assert Rotate(u, 1) == Rotate(vs, r);
      EdgesRotateByOne(u);
      var es := Edges(u);
      TogglesOfAppend(pt, es[1..], [es[0]]);
      var bs := TogglesOf(pt, es);
      assert TogglesOf(pt, es[1..]) == bs[1..];
      assert TogglesOf(pt, [es[0]]) == [bs[0]];
      CountTrueRotate(bs);
      InsideIsEdgeParity(pt, u);
      InsideIsEdgeParity(pt, Rotate(u, 1));
    }
  }

  /** The centroid of the square with corners (0,0), (2,0), (2,2), (0,2) is inside: only the
      vertical edge on the right toggles. */
  lemma SquareCentroidInside()
    ensures Inside(Point(1.0, 1.0), [Point(0.0, 0.0), Point(2.0, 0.0), Point(2.0, 2.0), Point(0.0, 2.0)])
  {
    var vs := [Point(0.0, 0.0), Point(2.0, 0.0), Point(2.0, 2.0), Point(0.0, 2.0)];
    var pt := Point(1.0, 1.0);
    InsideIsEdgeParity(pt, vs);
    var es := Edges(vs);
    assert es == [(vs[0], vs[1]), (vs[1], vs[2]), (vs[2], vs[3]), (vs[3], vs[0])];
    var bs := TogglesOf(pt, es);
    assert bs == [false, true, false, false];
    assert CountTrue(bs) == 1;
  }
}

=== FILE: region_filter.dfy ===
/** `filter_out_measurements_outside_area`: keep, per timestamp, the detections whose
    (measurement[0], measurement[1]) lies inside the region polygon. */
module RegionFilter {
  import opened Geometry
  import opened Wrappers
  import opened Sequences
  import opened Measurements
  import opened Polygon

  /** The detections of one timestamp that lie inside the polygon, in source order. */
  function KeepInside(ds: seq<Detection>, vs: seq<Point>): (r: seq<Detection>)
    requires 0 < |vs|
    ensures IsSubsequence(r, ds)
    ensures forall d :: d in r <==> d in ds && Inside(d.pos, vs)
    ensures forall d :: multiset(r)[d] == if Inside(d.pos, vs) then multiset(ds)[d] else 0
  {
    if |ds| == 0 then []
    else
      assert ds == [ds[0]] + ds[1..];
      if Inside(ds[0].pos, vs) then [ds[0]] + KeepInside(ds[1..], vs)
      else KeepInside(ds[1..], vs)
  }

  predicate HasDetections(d: MeasurementDict)
  {
    exists k :: 0 <= k < |d| && |d[k].detections| > 0
  }

  /** The filtered dict: same keys in the same order, each list filtered. It raises (the
      polygon test indexes `vertices[0]`) exactly when the polygon is empty and there is at
      least one detection to test. */
  function FilterOutsideArea(d: MeasurementDict, vs: seq<Point>): (r: Result<MeasurementDict, PolygonError>)
    ensures r.Failure? <==> |vs| == 0 && HasDetections(d)
    ensures r.Success? ==> Keys(r.value) == Keys(d)
    ensures r.Success? ==> forall k :: 0 <= k < |d| ==>
              && IsSubsequence(r.value[k].detections, d[k].detections)
              && (forall x :: x in r.value[k].detections <==> x in d[k].detections && PointInsidePolygon(x.pos, vs) == Success(true))
              && forall x :: multiset(r.value[k].detections)[x]
                               == if PointInsidePolygon(x.pos, vs) == Success(true) then multiset(d[k].detections)[x] else 0
  {
    if |vs| == 0 then
      if HasDetections(d) then Failure(EmptyPolygon)
      else
        assert forall k :: 0 <= k < |d| ==> d[k].detections == [];
        Success(d)
    else
      Success(seq(|d|, k requires 0 <= k < |d| => Frame(d[k].timestamp, KeepInside(d[k].detections, vs))))
  }
}

=== FILE: sequences.dfy ===
/** Sequence facts shared by the filters of the pipeline. */
module Sequences {

  /** `a` is obtained from `b` by deleting elements, keeping the order of the rest. */
  predicate IsSubsequence<T(==)>(a: seq<T>, b: seq<T>)
    decreases |b|
  {
    if |b| == 0 then |a| == 0
    else IsSubsequence(a, b[1..]) || (|a| > 0 && a[0] == b[0] && IsSubsequence(a[1..], b[1..]))
  }

  /** Number of `true` entries. */
  function CountTrue(bs: seq<bool>): (n: nat)
    ensures n <= |bs|
    ensures n == 0 <==> forall i :: 0 <= i < |bs| ==> !bs[i]
  {
    if |bs| == 0 then 0 else (if bs[0] then 1 else 0) + CountTrue(bs[1..])
  }

  lemma {:induction false} CountTrueAppend(a: seq<bool>, b: seq<bool>)
    ensures CountTrue(a + b) == CountTrue(a) + CountTrue(b)
    decreases |a|
  {
    if |a| == 0 {
      assert a + b == b;
    } else {
      assert (a + b)[1..] == a[1..] + b;
      CountTrueAppend(a[1..], b);
    }
  }

  /** Exclusive-or of all entries, folded from the left starting at `false`. */
  function Parity(bs: seq<bool>): bool
  {
    if |bs| == 0 then false else Parity(bs[..|bs| - 1]) != bs[|bs| - 1]
  }

  predicate Odd(n: nat) { n % 2 == 1 }

  lemma {:induction false} ParityIsOddCount(bs: seq<bool>)
    ensures Parity(bs) == Odd(CountTrue(bs))
    decreases |bs|
  {
    if |bs| > 0 {
      var init := bs[..|bs| - 1];
      ParityIsOddCount(init);
      assert bs == init + [bs[|bs| - 1]];
      CountTrueAppend(init, [bs[|bs| - 1]]);
      assert [bs[|bs| - 1]][1..] == [];
    }
  }

  /** Moving the first entry to the end keeps the count. */
  lemma CountTrueRotate(bs: seq<bool>)
    requires |bs| > 0
    ensures CountTrue(bs[1..] + [bs[0]]) == CountTrue(bs)
  {
    CountTrueAppend(bs[1..], [bs[0]]);
    assert [bs[0]][1..] == [];
  }
}

=== FILE: track_builder.dfy ===
/** `establish_tracks`: a single greedy pass over the timestamps that links every detection
    to an existing track or opens a new one.

    While there are no tracks, each detection of a timestamp opens its own track. Afterwards
    each detection, with its coordinates read as x = measurement[1], y = measurement[0], is
    compared with the last sample of every track and (for tracks of two or more samples) the
    second-to-last one; a track of one sample counts as 1000 away from it there. If the
    nearest last sample is closer than 15, the first track attaining that minimum is chosen;
    otherwise, if the nearest second-to-last sample is closer than 15, the first track
    attaining that minimum is chosen; otherwise a new track is opened. A chosen track is
    extended only if the detection is less than 4 time units after the track's last sample
    (also in the second-to-last case); otherwise a new track is opened. A new track's id is
    the running counter, which always equals its position in the list.

    The source seeds the tracks of the first timestamp with the coordinates in the other
    order (x = measurement[0], y = measurement[1]). `consistentSeed = false` reproduces that;
    `EstablishTracks` uses the consistent order, see `SeedSwapSplitsStationaryTarget`. */
module TrackBuilder {
  import opened Geometry
  import opened Measurements
  import opened Tracks

  /** `distance_between_measurements_in_track`, `time_between_measurements_in_track` and
      the stand-in second-to-last distance of a one-sample track. */
  const LinkDistance: real := 15.0
  const MaxTimeGap: real := 4.0
  const NoSecondLastDistance: real := 1000.0

  /** The sample a linked detection becomes: x from measurement[1], y from measurement[0]. */
  function SampleOf(t: real, d: Detection): Sample
  {
    Sample(t, d.pos.y, d.pos.x)
  }

  /** The sample a detection seeding the first tracks becomes. */
  function SeedSample(t: real, d: Detection, consistentSeed: bool): Sample
  {
    if consistentSeed then SampleOf(t, d) else Sample(t, d.pos.x, d.pos.y)
  }

  /** Every track is non-empty and its id is its position. */
  predicate ValidTracks(ts: seq<Track>)
  {
    forall i :: 0 <= i < |ts| ==> ts[i].id == i && |ts[i].samples| > 0
  }

  function LastSample(tr: Track): Sample
    requires |tr.samples| > 0
  {
    tr.samples[|tr.samples| - 1]
  }

  function DistToLast(tr: Track, q: Point): real
    requires |tr.samples| > 0
  {
    DistSq(PointOf(LastSample(tr)), q)
  }

  function DistToSecondLast(tr: Track, q: Point): real
  {
    if |tr.samples| > 1 then DistSq(PointOf(tr.samples[|tr.samples| - 2]), q)
    else NoSecondLastDistance * NoSecondLastDistance
  }

  /** `distances_to_last` (squared). */
  function LastDists(ts: seq<Track>, q: Point): (xs: seq<real>)
    requires ValidTracks(ts)
    ensures |xs| == |ts|
  {
    seq(|ts|, i requires 0 <= i < |ts| => DistToLast(ts[i], q))
  }

  /** `distance_to_second_last` (squared). */
  function SecondLastDists(ts: seq<Track>, q: Point): (xs: seq<real>)
    ensures |xs| == |ts|
  {
    seq(|ts|, i requires 0 <= i < |ts| => DistToSecondLast(ts[i], q))
  }

  /** k is `xs.index(min(xs))`: it attains the minimum and no earlier position does. */
  predicate IsFirstMin(xs: seq<real>, k: nat)
  {
    && k < |xs|
    && (forall i :: 0 <= i < |xs| ==> xs[k] <= xs[i])
    && (forall i :: 0 <= i < k ==> xs[i] > xs[k])
  }

  function ArgMin(xs: seq<real>): (k: nat)
    requires |xs| > 0
    ensures IsFirstMin(xs, k)
  {
    if |xs| == 1 then 0
    else
      var k := ArgMin(xs[..|xs| - 1]);
      if xs[|xs| - 1] < xs[k] then |xs| - 1 else k
  }

  lemma FirstMinUnique(xs: seq<real>, a: nat, b: nat)
    requires IsFirstMin(xs, a) && IsFirstMin(xs, b)
    ensures a == b
  {
    assert xs[a] == xs[b];
  }

  /** Track k is the one the heuristic picks for query point q: the first nearest by last
      sample when that is within the link distance, else (no last sample within it) the
      first nearest by second-to-last sample when that is within the link distance. */
  predicate Chosen(ts: seq<Track>, q: Point, k: nat)
    requires ValidTracks(ts)
  {
    var ls := LastDists(ts, q);
    var ss := SecondLastDists(ts, q);
    || (IsFirstMin(ls, k) && ls[k] < LinkDistance * LinkDistance)
    || (&& (forall i :: 0 <= i < |ls| ==> ls[i] >= LinkDistance * LinkDistance)
        && IsFirstMin(ss, k) && ss[k] < LinkDistance * LinkDistance)
  }

  /** The time since track k's last sample. */
  function Gap(ts: seq<Track>, k: nat, t: real): real
    requires ValidTracks(ts) && k < |ts|
  {
    t - LastSample(ts[k]).timestamp
  }

  datatype Link = Extend(index: nat) | OpenNew

  /** The branch structure of the loop body: extend the chosen track when it is recent
      enough, open a new track otherwise. */
  function Decide(ts: seq<Track>, t: real, q: Point): (r: Link)
    requires ValidTracks(ts) && |ts| > 0
    ensures r.Extend? ==> r.index < |ts|
  {
    var ls := LastDists(ts, q);
    var kl := ArgMin(ls);
    if ls[kl] < LinkDistance * LinkDistance then
      if Gap(ts, kl, t) < MaxTimeGap then Extend(kl) else OpenNew
    else
      var ss := SecondLastDists(ts, q);
      var ks := ArgMin(ss);
      if ss[ks] < LinkDistance * LinkDistance then
        if Gap(ts, ks, t) < MaxTimeGap then Extend(ks) else OpenNew
      else
        OpenNew
  }

  /** Decide extends exactly a chosen track that is recent; when it opens a new track, no
      chosen track is recent. */
  lemma DecideOutcome(ts: seq<Track>, t: real, q: Point)
    requires ValidTracks(ts) && |ts| > 0
    ensures var r := Decide(ts, t, q);
            && (r.Extend? ==> r.index < |ts| && Chosen(ts, q, r.index) && Gap(ts, r.index, t) < MaxTimeGap)
            && (r.OpenNew? ==> forall k: nat :: k < |ts| && Chosen(ts, q, k) ==> Gap(ts, k, t) >= MaxTimeGap)
  {
    var ls := LastDists(ts, q);
    var kl := ArgMin(ls);
    if ls[kl] < LinkDistance * LinkDistance {
      forall k: nat | k < |ts| && Chosen(ts, q, k)
        ensures k == kl
      {
        assert IsFirstMin(ls, k);
        FirstMinUnique(ls, k, kl);
      }
    } else {
      var ss := SecondLastDists(ts, q);
      var ks := ArgMin(ss);
      assert forall k: nat :: k < |ts| && Chosen(ts, q, k) ==> IsFirstMin(ss, k) && ss[k] < LinkDistance * LinkDistance;
      if ss[ks] < LinkDistance * LinkDistance {
        forall k: nat | k < |ts| && Chosen(ts, q, k)
          ensures k == ks
        {
          FirstMinUnique(ss, k, ks);
        }
      }
    }
  }

  /** The builder's state: the track list and `track_counter`. */
  datatype BuildState = BuildState(tracks: seq<Track>, counter: nat)

  predicate Valid(st: BuildState)
  {
    ValidTracks(st.tracks) && st.counter == |st.tracks|
  }

  /** Each track of `a` is still present in `b` at the same position with the same id, and
      its samples are a prefix of its samples in `b`. */
  predicate Grows(a: seq<Track>, b: seq<Track>)
  {
    && |a| <= |b|
    && forall i :: 0 <= i < |a| ==> b[i].id == a[i].id && a[i].samples <= b[i].samples
  }

  lemma GrowsTransitive(a: seq<Track>, b: seq<Track>, c: seq<Track>)
    requires Grows(a, b) && Grows(b, c)
    ensures Grows(a, c)
  {
  }

  /** `Track(track_counter)`, one `add_measurement`, appended; the counter advances. */
  function OpenTrack(st: BuildState, s: Sample): (r: BuildState)
    requires Valid(st)
    ensures Valid(r)
    ensures r.tracks == st.tracks + [Track(|st.tracks|, [s])]
  {
    var tr := AddMeasurement(Track(st.counter, []), s.timestamp, s.x, s.y);
    assert tr.samples == [s];
    BuildState(st.tracks + [tr], st.counter + 1)
  }

  /** One detection of a timestamp after the first: extend the chosen recent track or open
      a new one. */
  function Place(st: BuildState, t: real, d: Detection): (r: BuildState)
    requires Valid(st) && |st.tracks| > 0
    ensures Valid(r)
    ensures Grows(st.tracks, r.tracks)
  {
    var s := SampleOf(t, d);
    match Decide(st.tracks, t, PointOf(s))
    case Extend(k) =>
      var ts := st.tracks[k := AddMeasurement(st.tracks[k], s.timestamp, s.x, s.y)];
      assert ts[k].samples[..|st.tracks[k].samples|] == st.tracks[k].samples;
      BuildState(ts, st.counter)
    case OpenNew =>
      OpenTrack(st, s)
  }

  /** The two outcomes of placing a detection: the chosen track, when recent, gains the
      detection's sample; otherwise a track holding only that sample is appended. */
  lemma PlaceOutcome(st: BuildState, t: real, d: Detection)
    requires Valid(st) && |st.tracks| > 0
    ensures var ts, s, r := st.tracks, SampleOf(t, d), Place(st, t, d);
            || (exists k: nat :: k < |ts| && Chosen(ts, PointOf(s), k) && Gap(ts, k, t) < MaxTimeGap
                                && r.tracks == ts[k := Track(k, ts[k].samples + [s])])
            || ((forall k: nat :: k < |ts| && Chosen(ts, PointOf(s), k) ==> Gap(ts, k, t) >= MaxTimeGap)
                && r.tracks == ts + [Track(|ts|, [s])])
  {
    DecideOutcome(st.tracks, t, PointOf(SampleOf(t, d)));
  }

  /** The seeding loop over the first n detections of a timestamp. */
  function SeedUpTo(st: BuildState, t: real, ds: seq<Detection>, n: nat, consistentSeed: bool): (r: BuildState)
    requires Valid(st) && n <= |ds|
    ensures Valid(r)
    ensures |r.tracks| == |st.tracks| + n
    ensures Grows(st.tracks, r.tracks)
  {
    if n == 0 then st
    else
      var prev := SeedUpTo(st, t, ds, n - 1, consistentSeed);
      var r := OpenTrack(prev, SeedSample(t, ds[n - 1], consistentSeed));
      GrowsTransitive(st.tracks, prev.tracks, r.tracks);
      r
  }

  /** Seeding appends, in detection order, one track per detection holding only its seed
      sample, with the next ids; the tracks already there are untouched. */
  lemma {:induction false} SeedUpToTracks(st: BuildState, t: real, ds: seq<Detection>, n: nat, consistentSeed: bool)
    requires Valid(st) && n <= |ds|
    ensures SeedUpTo(st, t, ds, n, consistentSeed).tracks
         == st.tracks + seq(n, i requires 0 <= i < n => Track(|st.tracks| + i, [SeedSample(t, ds[i], consistentSeed)]))
  {
    if n > 0 {
      SeedUpToTracks(st, t, ds, n - 1, consistentSeed);
    }
  }

  /** The linking loop over the first n detections of a timestamp. */
  function LinkUpTo(st: BuildState, t: real, ds: seq<Detection>, n: nat): (r: BuildState)
    requires Valid(st) && |st.tracks| > 0 && n <= |ds|
    ensures Valid(r) && |r.tracks| > 0
    ensures Grows(st.tracks, r.tracks)
  {
    if n == 0 then st
    else
      var prev := LinkUpTo(st, t, ds, n - 1);
      var r := Place(prev, t, ds[n - 1]);
      GrowsTransitive(st.tracks, prev.tracks, r.tracks);
      r
  }

  /** One timestamp of the outer loop. */
  function ProcessFrame(st: BuildState, f: Frame, consistentSeed: bool): (r: BuildState)
    requires Valid(st)
    ensures Valid(r)
    ensures Grows(st.tracks, r.tracks)
  {
    if |st.tracks| == 0 then SeedUpTo(st, f.timestamp, f.detections, |f.detections|, consistentSeed)
    else LinkUpTo(st, f.timestamp, f.detections, |f.detections|)
  }

  /** The state after the first n timestamps. */
  function BuildUpTo(d: MeasurementDict, n: nat, consistentSeed: bool): (r: BuildState)
    requires n <= |d|
    ensures Valid(r)
  {
    if n == 0 then BuildState([], 0)
    else ProcessFrame(BuildUpTo(d, n - 1, consistentSeed), d[n - 1], consistentSeed)
  }

  /** `establish_tracks` with the first timestamp stored in the same coordinate order as
      the rest. */
  function EstablishTracks(d: MeasurementDict): seq<Track>
  {
    BuildUpTo(d, |d|, true).tracks
  }

  /** `establish_tracks` as written, first timestamp stored unswapped. */
  function EstablishTracksAsWritten(d: MeasurementDict): seq<Track>
  {
    BuildUpTo(d, |d|, false).tracks
  }

  /** All samples of all tracks, track by track. */
  function Flatten(ts: seq<Track>): seq<Sample>
  {
    if |ts| == 0 then [] else Flatten(ts[..|ts| - 1]) + ts[|ts| - 1].samples
  }

  lemma FlattenAppendTrack(ts: seq<Track>, tr: Track)
    ensures Flatten(ts + [tr]) == Flatten(ts) + tr.samples
  {
    assert (ts + [tr])[..|ts|] == ts;
  }

  lemma {:induction false} FlattenExtendTrack(ts: seq<Track>, k: nat, s: Sample)
    requires k < |ts|
    ensures multiset(Flatten(ts[k := Track(ts[k].id, ts[k].samples + [s])]))
         == multiset(Flatten(ts)) + multiset{s}
    decreases |ts|
  {
    var n := |ts|;
    var tr := Track(ts[k].id, ts[k].samples + [s]);
    var us := ts[k := tr];
    if k == n - 1 {
      FlattenExtendLast(ts, s);
    } else {
      FlattenExtendTrack(ts[..n - 1], k, s);
      FlattenExtendEarlier(ts, k, s);
    }
  }

  lemma FlattenExtendLast(ts: seq<Track>, s: Sample)
    requires |ts| > 0
    ensures var k := |ts| - 1;
            Flatten(ts[k := Track(ts[k].id, ts[k].samples + [s])]) == Flatten(ts) + [s]
  {
    var k := |ts| - 1;
    var us := ts[k := Track(ts[k].id, ts[k].samples + [s])];
    assert us[..k] == ts[..k];
  }

  lemma FlattenExtendEarlier(ts: seq<Track>, k: nat, s: Sample)
    requires k < |ts| - 1
    ensures var n := |ts|;
            var tr := Track(ts[k].id, ts[k].samples + [s]);
            Flatten(ts[k := tr]) == Flatten(ts[..n - 1][k := tr]) + ts[n - 1].samples
  {
    var n := |ts|;
    var tr := Track(ts[k].id, ts[k].samples + [s]);
    assert ts[k := tr][..n - 1] == ts[..n - 1][k := tr];
  }

  /** The samples the detections of one timestamp become, in order. */
  function FrameSamples(t: real, ds: seq<Detection>, consistentSeed: bool): (ss: seq<Sample>)
    ensures |ss| == |ds|
  {
    seq(|ds|, i requires 0 <= i < |ds| => SeedSample(t, ds[i], consistentSeed))
  }

  lemma FrameSamplesSnoc(t: real, ds: seq<Detection>, n: nat, consistentSeed: bool)
    requires 0 < n <= |ds|
    ensures FrameSamples(t, ds[..n], consistentSeed)
         == FrameSamples(t, ds[..n - 1], consistentSeed) + [SeedSample(t, ds[n - 1], consistentSeed)]
  {
  }

  /** One placed detection adds exactly its sample. */
  lemma PlaceAddsItsSample(st: BuildState, t: real, d: Detection)
    requires Valid(st) && |st.tracks| > 0
    ensures multiset(Flatten(Place(st, t, d).tracks)) == multiset(Flatten(st.tracks)) + multiset{SampleOf(t, d)}
  {
    var ts, s := st.tracks, SampleOf(t, d);
    var r := Place(st, t, d);
    PlaceOutcome(st, t, d);
    if exists k: nat :: k < |ts| && Chosen(ts, PointOf(s), k) && Gap(ts, k, t) < MaxTimeGap
                        && r.tracks == ts[k := Track(k, ts[k].samples + [s])] {
      var k: nat :| k < |ts| && Chosen(ts, PointOf(s), k) && Gap(ts, k, t) < MaxTimeGap
                    && r.tracks == ts[k := Track(k, ts[k].samples + [s])];
      FlattenExtendTrack(ts, k, s);
    } else {
      FlattenAppendTrack(ts, Track(|ts|, [s]));
    }
  }

  lemma LinkUpToStep(st: BuildState, t: real, ds: seq<Detection>, n: nat)
    requires Valid(st) && |st.tracks| > 0 && 0 < n <= |ds|
    ensures multiset(Flatten(LinkUpTo(st, t, ds, n).tracks))
         == multiset(Flatten(LinkUpTo(st, t, ds, n - 1).tracks)) + multiset{SampleOf(t, ds[n - 1])}
  {
    PlaceAddsItsSample(LinkUpTo(st, t, ds, n - 1), t, ds[n - 1]);
  }

  lemma {:induction false} LinkUpToAddsSamples(st: BuildState, t: real, ds: seq<Detection>, n: nat)
    requires Valid(st) && |st.tracks| > 0 && n <= |ds|
    ensures multiset(Flatten(LinkUpTo(st, t, ds, n).tracks))
         == multiset(Flatten(st.tracks)) + multiset(FrameSamples(t, ds[..n], true))
  {
    if n > 0 {
      LinkUpToAddsSamples(st, t, ds, n - 1);
      LinkUpToStep(st, t, ds, n);
      FrameSamplesStep(t, ds, n, true);
    } else {
      assert ds[..n] == [];
    }
  }

  lemma OpenTrackAddsSample(st: BuildState, x: Sample)
    requires Valid(st)
    ensures multiset(Flatten(OpenTrack(st, x).tracks)) == multiset(Flatten(st.tracks)) + multiset{x}
  {
    FlattenAppendTrack(st.tracks, Track(|st.tracks|, [x]));
  }

  lemma SeedUpToStep(st: BuildState, t: real, ds: seq<Detection>, n: nat, consistentSeed: bool)
    requires Valid(st) && 0 < n <= |ds|
    ensures multiset(Flatten(SeedUpTo(st, t, ds, n, consistentSeed).tracks))
         == multiset(Flatten(SeedUpTo(st, t, ds, n - 1, consistentSeed).tracks))
            + multiset{SeedSample(t, ds[n - 1], consistentSeed)}
  {
    OpenTrackAddsSample(SeedUpTo(st, t, ds, n - 1, consistentSeed), SeedSample(t, ds[n - 1], consistentSeed));
  }

  lemma FrameSamplesStep(t: real, ds: seq<Detection>, n: nat, consistentSeed: bool)
    requires 0 < n <= |ds|
    ensures multiset(FrameSamples(t, ds[..n], consistentSeed))
         == multiset(FrameSamples(t, ds[..n - 1], consistentSeed)) + multiset{SeedSample(t, ds[n - 1], consistentSeed)}
  {
    FrameSamplesSnoc(t, ds, n, consistentSeed);
  }

  lemma {:induction false} SeedUpToAddsSamples(st: BuildState, t: real, ds: seq<Detection>, n: nat, consistentSeed: bool)
    requires Valid(st) && n <= |ds|
    ensures multiset(Flatten(SeedUpTo(st, t, ds, n, consistentSeed).tracks))
         == multiset(Flatten(st.tracks)) + multiset(FrameSamples(t, ds[..n], consistentSeed))
  {
    if n > 0 {
      SeedUpToAddsSamples(st, t, ds, n - 1, consistentSeed);
      SeedUpToStep(st, t, ds, n, consistentSeed);
      FrameSamplesStep(t, ds, n, consistentSeed);
    } else {
      assert ds[..n] == [];
    }
  }

  /** A timestamp adds one sample per detection: the seeded form while there are no tracks,
      the linked form afterwards. */
  lemma ProcessFrameAddsSamples(st: BuildState, f: Frame, consistentSeed: bool)
    requires Valid(st)
    ensures multiset(Flatten(ProcessFrame(st, f, consistentSeed).tracks))
         == multiset(Flatten(st.tracks))
            + multiset(FrameSamples(f.timestamp, f.detections, consistentSeed || |st.tracks| > 0))
  {
    assert f.detections[..|f.detections|] == f.detections;
    if |st.tracks| == 0 {
      SeedUpToAddsSamples(st, f.timestamp, f.detections, |f.detections|, consistentSeed);
    } else {
      LinkUpToAddsSamples(st, f.timestamp, f.detections, |f.detections|);
    }
  }

  /** The samples the detections of the first n timestamps become. The timestamp that opens
      the first tracks (no detection before it) is read in seeding order; every other one
      as x = measurement[1], y = measurement[0]. */
  function AllSamples(d: MeasurementDict, n: nat, consistentSeed: bool): (ss: seq<Sample>)
    requires n <= |d|
  {
    if n == 0 then [] else AllSamples(d, n - 1, consistentSeed) + FrameSamplesAt(d, n - 1, consistentSeed)
  }

  /** The samples of frame n: linked unless no detection comes before it. */
  function FrameSamplesAt(d: MeasurementDict, n: nat, consistentSeed: bool): (ss: seq<Sample>)
    requires n < |d|
  {
    FrameSamples(d[n].timestamp, d[n].detections, consistentSeed || DetectionCount(d, n) > 0)
  }

  lemma BuildUpToStep(d: MeasurementDict, n: nat, consistentSeed: bool)
    requires 0 < n <= |d|
    ensures var st := BuildUpTo(d, n - 1, consistentSeed);
            var added := FrameSamples(d[n - 1].timestamp, d[n - 1].detections, consistentSeed || |st.tracks| > 0);
            multiset(Flatten(BuildUpTo(d, n, consistentSeed).tracks)) == multiset(Flatten(st.tracks)) + multiset(added)
  {
    ProcessFrameAddsSamples(BuildUpTo(d, n - 1, consistentSeed), d[n - 1], consistentSeed);
  }

  lemma AllSamplesStep(d: MeasurementDict, n: nat, consistentSeed: bool)
    requires 0 < n <= |d|
    ensures multiset(AllSamples(d, n, consistentSeed))
         == multiset(AllSamples(d, n - 1, consistentSeed)) + multiset(FrameSamplesAt(d, n - 1, consistentSeed))
  {
  }

  /** After n timestamps the tracks hold, as a multiset, exactly the detections' samples. */
  predicate PlacedUpTo(d: MeasurementDict, n: nat, consistentSeed: bool)
    requires n <= |d|
  {
    multiset(Flatten(BuildUpTo(d, n, consistentSeed).tracks)) == multiset(AllSamples(d, n, consistentSeed))
  }

  lemma EveryDetectionPlacedStep(d: MeasurementDict, n: nat, consistentSeed: bool)
    requires n < |d|
    requires PlacedUpTo(d, n, consistentSeed)
    ensures PlacedUpTo(d, n + 1, consistentSeed)
  {
    BuildUpToStep(d, n + 1, consistentSeed);
    TracksExistIffDetections(d, n, consistentSeed);
    AllSamplesStep(d, n + 1, consistentSeed);
  }

  /** Every detection becomes exactly one sample of exactly one track, and nothing else is in
      the tracks: the samples of all tracks are, as a multiset, the detections' samples, the
      detections that open the first tracks in seeding order. */
  lemma {:induction false} EveryDetectionPlacedOnce(d: MeasurementDict, n: nat, consistentSeed: bool)
    requires n <= |d|
    ensures multiset(Flatten(BuildUpTo(d, n, consistentSeed).tracks)) == multiset(AllSamples(d, n, consistentSeed))
  {
    PlacedByInduction(d, n, consistentSeed);
  }

  lemma {:induction false} PlacedByInduction(d: MeasurementDict, n: nat, consistentSeed: bool)
    requires n <= |d|
    ensures PlacedUpTo(d, n, consistentSeed)
  {
    if n == 0 {
      assert BuildUpTo(d, 0, consistentSeed).tracks == [] && AllSamples(d, 0, consistentSeed) == [];
    } else {
      var m := n - 1;
      PlacedByInduction(d, m, consistentSeed);
      EveryDetectionPlacedStep(d, m, consistentSeed);
      assert m + 1 == n;
    }
  }

  /** A valid track list holds no sample exactly when it holds no track. */
  lemma FlattenEmpty(ts: seq<Track>)
    requires ValidTracks(ts)
    ensures |Flatten(ts)| == 0 <==> |ts| == 0
  {
    if |ts| > 0 {
      assert |ts[|ts| - 1].samples| > 0;
    }
  }

  /** The builder has opened a track exactly when some detection has been seen. */
  lemma TracksExistIffDetections(d: MeasurementDict, n: nat, consistentSeed: bool)
    requires n <= |d|
    ensures |BuildUpTo(d, n, consistentSeed).tracks| > 0 <==> DetectionCount(d, n) > 0
  {
    SampleCountIsDetectionCount(d, n, consistentSeed);
    FlattenEmpty(BuildUpTo(d, n, consistentSeed).tracks);
  }

  lemma SampleCountStep(d: MeasurementDict, n: nat, consistentSeed: bool)
    requires 0 < n <= |d|
    ensures |Flatten(BuildUpTo(d, n - 1, consistentSeed).tracks)| == DetectionCount(d, n - 1)
        ==> |Flatten(BuildUpTo(d, n, consistentSeed).tracks)| == DetectionCount(d, n)
  {
    var st := BuildUpTo(d, n - 1, consistentSeed);
    BuildUpToStep(d, n, consistentSeed);
    var added := FrameSamples(d[n - 1].timestamp, d[n - 1].detections, consistentSeed || |st.tracks| > 0);
    assert |multiset(Flatten(BuildUpTo(d, n, consistentSeed).tracks))|
        == |multiset(Flatten(st.tracks))| + |multiset(added)|;
  }

  /** Whatever the seeding order, the tracks hold as many samples as there are detections. */
  lemma SampleCountIsDetectionCount(d: MeasurementDict, n: nat, consistentSeed: bool)
    requires n <= |d|
    ensures |Flatten(BuildUpTo(d, n, consistentSeed).tracks)| == DetectionCount(d, n)
  {
    var k := 0;
    while k < n
      invariant k <= n
      invariant |Flatten(BuildUpTo(d, k, consistentSeed).tracks)| == DetectionCount(d, k)
    {
      var m := k + 1;
      SampleCountStep(d, m, consistentSeed);
      assert m - 1 == k;
      k := m;
    }
  }

  /** Later timestamps never modify earlier samples, never reorder or renumber tracks. */
  lemma TracksOnlyGrow(d: MeasurementDict, n: nat, m: nat, consistentSeed: bool)
    requires n <= m <= |d|
    ensures Grows(BuildUpTo(d, n, consistentSeed).tracks, BuildUpTo(d, m, consistentSeed).tracks)
  {
    var k := n;
    while k < m
      invariant n <= k <= m
      invariant Grows(BuildUpTo(d, n, consistentSeed).tracks, BuildUpTo(d, k, consistentSeed).tracks)
    {
      GrowsTransitive(BuildUpTo(d, n, consistentSeed).tracks, BuildUpTo(d, k, consistentSeed).tracks,
                      BuildUpTo(d, k + 1, consistentSeed).tracks);
      k := k + 1;
    }
  }

  /** The state after n timestamps depends on those timestamps only. */
  lemma {:induction false} BuildUpToPrefix(d: MeasurementDict, e: MeasurementDict, n: nat, consistentSeed: bool)
    requires n <= |d| && n <= |e| && d[..n] == e[..n]
    ensures BuildUpTo(d, n, consistentSeed) == BuildUpTo(e, n, consistentSeed)
  {
    if n > 0 {
      assert d[..n - 1] == d[..n][..n - 1] && e[..n - 1] == e[..n][..n - 1];
      assert d[n - 1] == d[..n][n - 1] && e[n - 1] == e[..n][n - 1];
      BuildUpToPrefix(d, e, n - 1, consistentSeed);
    }
  }

  /** One detection per timestamp, always at the same position. */
  predicate Stationary(d: MeasurementDict, p: Point)
  {
    forall k :: 0 <= k < |d| ==> |d[k].detections| == 1 && d[k].detections[0].pos == p
  }

  /** Consecutive timestamps less than the maximum time gap apart. */
  predicate GapsBelowMax(d: MeasurementDict)
  {
    forall k :: 0 < k < |d| ==> d[k].timestamp - d[k - 1].timestamp < MaxTimeGap
  }

  /** A timestamp with a single detection seeds one track or places the detection once. */
  lemma SingleDetectionFrame(st: BuildState, f: Frame, consistentSeed: bool)
    requires Valid(st) && |f.detections| == 1
    ensures |st.tracks| == 0 ==>
              ProcessFrame(st, f, consistentSeed) == OpenTrack(st, SeedSample(f.timestamp, f.detections[0], consistentSeed))
    ensures |st.tracks| > 0 ==> ProcessFrame(st, f, consistentSeed) == Place(st, f.timestamp, f.detections[0])
  {
    if |st.tracks| == 0 {
      assert SeedUpTo(st, f.timestamp, f.detections, 0, consistentSeed) == st;
    } else {
      assert LinkUpTo(st, f.timestamp, f.detections, 0) == st;
    }
  }

  /** When the first track ends exactly at the detection and is recent, the detection extends
      it. */
  lemma RecentFirstTrackExtended(st: BuildState, t: real, d: Detection)
    requires Valid(st) && |st.tracks| > 0
    requires PointOf(LastSample(st.tracks[0])) == PointOf(SampleOf(t, d))
    requires Gap(st.tracks, 0, t) < MaxTimeGap
    ensures Place(st, t, d).tracks == st.tracks[0 := Track(0, st.tracks[0].samples + [SampleOf(t, d)])]
  {
    PlaceOutcome(st, t, d);
    var ts, q := st.tracks, PointOf(SampleOf(t, d));
    var ls := LastDists(ts, q);
    assert ls[0] == 0.0;
    assert IsFirstMin(ls, 0);
    assert Chosen(ts, q, 0);
  }

  lemma {:induction false} StationaryStaysOneTrack(d: MeasurementDict, p: Point, n: nat)
    requires Stationary(d, p) && GapsBelowMax(d)
    requires 0 < n <= |d|
    ensures |BuildUpTo(d, n, true).tracks| == 1
    ensures LastSample(BuildUpTo(d, n, true).tracks[0]) == SampleOf(d[n - 1].timestamp, d[n - 1].detections[0])
  {
    var f := d[n - 1];
    var st := BuildUpTo(d, n - 1, true);
    SingleDetectionFrame(st, f, true);
    if n > 1 {
      StationaryStaysOneTrack(d, p, n - 1);
      RecentFirstTrackExtended(st, f.timestamp, f.detections[0]);
    }
  }

  /** The property the seeding order breaks: a stationary target seen at every timestamp,
      never with a time gap of 4 or more, forms a single track. */
  lemma StationaryTargetFormsOneTrack(d: MeasurementDict, p: Point)
    requires |d| > 0 && Stationary(d, p) && GapsBelowMax(d)
    ensures |EstablishTracks(d)| == 1
  {
    StationaryStaysOneTrack(d, p, |d|);
  }

  /** As written, the first timestamp's seed sample of a target at (0, 100) is stored as
      (x, y) = (0, 100), the same target one time unit later is compared as (100, 0), about
      141 away, and a second track is opened; the consistent order keeps one track. */
  lemma SeedSwapSplitsStationaryTarget()
    ensures var d := [Frame(0.0, [Detection(Point(0.0, 100.0), 10.0)]), Frame(1.0, [Detection(Point(0.0, 100.0), 10.0)])];
            |EstablishTracksAsWritten(d)| == 2 && |EstablishTracks(d)| == 1
  {
    var det := Detection(Point(0.0, 100.0), 10.0);
    var d := [Frame(0.0, [det]), Frame(1.0, [det])];
    assert Stationary(d, det.pos);
    StationaryTargetFormsOneTrack(d, det.pos);
    assert BuildUpTo(d, 0, false) == BuildState([], 0);
    var st := BuildUpTo(d, 1, false);
    assert st == ProcessFrame(BuildState([], 0), d[0], false);
    assert st == SeedUpTo(BuildState([], 0), 0.0, [det], 1, false);
    assert st.tracks == [Track(0, [Sample(0.0, 0.0, 100.0)])];
    var q := PointOf(SampleOf(1.0, det));
    assert q == Point(100.0, 0.0);
    assert LastDists(st.tracks, q) == [20000.0];
    assert SecondLastDists(st.tracks, q) == [1000000.0];
    assert !Chosen(st.tracks, q, 0);
    PlaceOutcome(st, 1.0, det);
    var r := Place(st, 1.0, det);
    assert LinkUpTo(st, 1.0, [det], 1) == r;
    assert |r.tracks| == 2;
  }
  /** Ties go to the lowest track index even when that track is stale: when the first track
      ends exactly at the detection but is at least the maximum time gap old, a new track is
      opened, whatever the later tracks hold. */
  lemma StaleFirstTrackForcesNewTrack(st: BuildState, t: real, d: Detection)
    requires Valid(st) && |st.tracks| > 0
    requires PointOf(LastSample(st.tracks[0])) == PointOf(SampleOf(t, d))
    requires Gap(st.tracks, 0, t) >= MaxTimeGap
    ensures Place(st, t, d).tracks == st.tracks + [Track(|st.tracks|, [SampleOf(t, d)])]
  {
    PlaceOutcome(st, t, d);
    var ts, q := st.tracks, PointOf(SampleOf(t, d));
    var ls := LastDists(ts, q);
    assert ls[0] == 0.0;
    assert IsFirstMin(ls, 0);
    forall k: nat | k < |ts| && Chosen(ts, q, k)
      ensures k == 0
    {
      FirstMinUnique(ls, k, 0);
    }
  }

  /** A target at the same place at times 0, 1, 10 and 11 opens a track at 10 (the first
      track is 9 time units old) and another at 11, because the stale first track still
      attains the minimum distance 0 first. At (3, 4), near the diagonal, the seeding order
      makes no difference: the swapped second sample is still within the link distance. */
  lemma StaleTrackWinsTie()
    ensures var det := Detection(Point(3.0, 4.0), 10.0);
            var d := [Frame(0.0, [det]), Frame(1.0, [det]), Frame(10.0, [det]), Frame(11.0, [det])];
            |EstablishTracks(d)| == 3 && |EstablishTracksAsWritten(d)| == 3
  {
    var det := Detection(Point(3.0, 4.0), 10.0);
    var d := [Frame(0.0, [det]), Frame(1.0, [det]), Frame(10.0, [det]), Frame(11.0, [det])];
    assert Stationary(d[..2], det.pos) && GapsBelowMax(d[..2]);
    StationaryStaysOneTrack(d[..2], det.pos, 2);
    BuildUpToPrefix(d[..2], d, 2, true);
    StaleTieAfterTwo(d, true);
    AsWrittenNearDiagonalExtended(d);
    StaleTieAfterTwo(d, false);
  }

  /** As written, the seed (3, 4) and the linked (4, 3) are close: one track of two samples. */
  lemma AsWrittenNearDiagonalExtended(d: MeasurementDict)
    requires var det := Detection(Point(3.0, 4.0), 10.0);
             d == [Frame(0.0, [det]), Frame(1.0, [det]), Frame(10.0, [det]), Frame(11.0, [det])]
    ensures |BuildUpTo(d, 2, false).tracks| == 1
    ensures LastSample(BuildUpTo(d, 2, false).tracks[0]) == SampleOf(1.0, d[1].detections[0])
  {
    var det := d[0].detections[0];
    assert BuildUpTo(d, 0, false) == BuildState([], 0);
    var st := BuildUpTo(d, 1, false);
    SingleDetectionFrame(BuildState([], 0), d[0], false);
    assert st.tracks == [Track(0, [Sample(0.0, 3.0, 4.0)])];
    var q := PointOf(SampleOf(1.0, det));
    assert q == Point(4.0, 3.0);
    assert LastDists(st.tracks, q) == [2.0];
    assert Chosen(st.tracks, q, 0);
    SingleDetectionFrame(st, d[1], false);
    PlaceOutcome(st, 1.0, det);
  }

  /** Once the first two timestamps have built one track ending at the target, times 10 and
      11 each open a track. */
  lemma StaleTieAfterTwo(d: MeasurementDict, consistentSeed: bool)
    requires var det := Detection(Point(3.0, 4.0), 10.0);
             d == [Frame(0.0, [det]), Frame(1.0, [det]), Frame(10.0, [det]), Frame(11.0, [det])]
    requires |BuildUpTo(d, 2, consistentSeed).tracks| == 1
    requires LastSample(BuildUpTo(d, 2, consistentSeed).tracks[0]) == SampleOf(1.0, d[1].detections[0])
    ensures |BuildUpTo(d, 4, consistentSeed).tracks| == 3
  {
    var det := d[0].detections[0];
    var st2 := BuildUpTo(d, 2, consistentSeed);
    SingleDetectionFrame(st2, d[2], consistentSeed);
    StaleFirstTrackForcesNewTrack(st2, 10.0, det);
    var st3 := BuildUpTo(d, 3, consistentSeed);
    assert st3.tracks[0] == st2.tracks[0];
    SingleDetectionFrame(st3, d[3], consistentSeed);
    StaleFirstTrackForcesNewTrack(st3, 11.0, det);
  }
}

=== FILE: tracks.dfy ===
/** The `Track` container of utilities.py: an id and the samples {timestamp, x, y} appended to
    it, with the operations the container offers. */
module Tracks {
  import opened Geometry

  datatype Sample = Sample(timestamp: real, x: real, y: real)

  datatype Track = Track(id: nat, samples: seq<Sample>)

  function PointOf(s: Sample): Point { Point(s.x, s.y) }

  /** `add_measurement`: one sample at the end; the id and the earlier samples are untouched. */
  function AddMeasurement(tr: Track, t: real, x: real, y: real): (r: Track)
    ensures r.id == tr.id
    ensures |r.samples| == |tr.samples| + 1
    ensures r.samples[..|tr.samples|] == tr.samples
    ensures r.samples[|tr.samples|] == Sample(t, x, y)
  {
    Track(tr.id, tr.samples + [Sample(t, x, y)])
  }

  predicate SortedByTime(ss: seq<Sample>)
  {
    forall i, j :: 0 <= i < j < |ss| ==> ss[i].timestamp <= ss[j].timestamp
  }

  /** No sample is earlier than lo. */
  predicate NotBefore(lo: real, ss: seq<Sample>)
  {
    forall k :: 0 <= k < |ss| ==> lo <= ss[k].timestamp
  }

  lemma NotBeforePermutation(lo: real, a: seq<Sample>, b: seq<Sample>)
    requires multiset(a) == multiset(b) && NotBefore(lo, a)
    ensures NotBefore(lo, b)
  {
    forall k | 0 <= k < |b|
      ensures lo <= b[k].timestamp
    {
      assert b[k] in multiset(a);
    }
  }

  lemma SortedCons(a: Sample, ss: seq<Sample>)
    requires NotBefore(a.timestamp, ss) && SortedByTime(ss)
    ensures SortedByTime([a] + ss)
  {
    forall i, j | 0 <= i < j < |[a] + ss|
      ensures ([a] + ss)[i].timestamp <= ([a] + ss)[j].timestamp
    {
      if i > 0 {
        assert ([a] + ss)[i] == ss[i - 1] && ([a] + ss)[j] == ss[j - 1];
      }
    }
  }

  /** Place x before the first sample that is not earlier than it. */
  function InsertByTime(x: Sample, ss: seq<Sample>): (r: seq<Sample>)
    ensures multiset(r) == multiset(ss) + multiset{x}
  {
    if |ss| == 0 || x.timestamp <= ss[0].timestamp then [x] + ss
    else
      assert ss == [ss[0]] + ss[1..];
      [ss[0]] + InsertByTime(x, ss[1..])
  }

  /** Inserting into a sorted sequence keeps it sorted. */
  lemma {:induction false} InsertByTimeSorted(x: Sample, ss: seq<Sample>)
    requires SortedByTime(ss)
    ensures SortedByTime(InsertByTime(x, ss))
    decreases |ss|
  {
    if |ss| == 0 || x.timestamp <= ss[0].timestamp {
      SortedCons(x, ss);
    } else {
      var rest := InsertByTime(x, ss[1..]);
      InsertByTimeSorted(x, ss[1..]);
      assert multiset(ss[1..] + [x]) == multiset(rest);
      assert NotBefore(ss[0].timestamp, ss[1..] + [x]) by {
        forall k | 0 <= k < |ss[1..] + [x]|
          ensures ss[0].timestamp <= (ss[1..] + [x])[k].timestamp
        {
          if k < |ss| - 1 {
            assert (ss[1..] + [x])[k] == ss[k + 1];
          }
        }
      }
      NotBeforePermutation(ss[0].timestamp, ss[1..] + [x], rest);
      SortedCons(ss[0], rest);
    }
  }

  /** Python's `sorted(..., key=timestamp)`: a stable sort. */
  function SortSamples(ss: seq<Sample>): (r: seq<Sample>)
    ensures SortedByTime(r)
    ensures multiset(r) == multiset(ss)
  {
    if |ss| == 0 then []
    else
      assert ss == [ss[0]] + ss[1..];
      InsertByTimeSorted(ss[0], SortSamples(ss[1..]));
      InsertByTime(ss[0], SortSamples(ss[1..]))
  }

  /** `sort_by_timestamp`: the same samples, ordered by timestamp, under the same id. */
  function SortByTimestamp(tr: Track): (r: Track)
    ensures r.id == tr.id
    ensures SortedByTime(r.samples)
    ensures multiset(r.samples) == multiset(tr.samples)
  {
    Track(tr.id, SortSamples(tr.samples))
  }

  /** The samples carrying timestamp t, in order. */
  function AtTime(ss: seq<Sample>, t: real): seq<Sample>
  {
    if |ss| == 0 then []
    else (if ss[0].timestamp == t then [ss[0]] else []) + AtTime(ss[1..], t)
  }

  lemma AtTimeCons(a: Sample, ss: seq<Sample>, t: real)
    ensures a.timestamp == t ==> AtTime([a] + ss, t) == [a] + AtTime(ss, t)
    ensures a.timestamp != t ==> AtTime([a] + ss, t) == AtTime(ss, t)
  {
    assert ([a] + ss)[1..] == ss;
  }

  lemma {:induction false} InsertByTimeStable(x: Sample, ss: seq<Sample>, t: real)
    ensures x.timestamp == t ==> AtTime(InsertByTime(x, ss), t) == [x] + AtTime(ss, t)
    ensures x.timestamp != t ==> AtTime(InsertByTime(x, ss), t) == AtTime(ss, t)
    decreases |ss|
  {
    if |ss| == 0 || x.timestamp <= ss[0].timestamp {
      AtTimeCons(x, ss, t);
    } else {
      var rest := InsertByTime(x, ss[1..]);
      assert InsertByTime(x, ss) == [ss[0]] + rest;
      assert ss == [ss[0]] + ss[1..];
      InsertByTimeStable(x, ss[1..], t);
      AtTimeCons(ss[0], rest, t);
      AtTimeCons(ss[0], ss[1..], t);
    }
  }

  /** The sort is stable: samples sharing a timestamp keep their relative order. */
  lemma {:induction false} SortSamplesStable(ss: seq<Sample>, t: real)
    ensures AtTime(SortSamples(ss), t) == AtTime(ss, t)
    decreases |ss|
  {
    if |ss| > 0 {
      SortSamplesStable(ss[1..], t);
      InsertByTimeStable(ss[0], SortSamples(ss[1..]), t);
    }
  }

  /** A length function never negative. */
  ghost predicate NonNegative(length: (Point, Point) -> real)
  {
    forall p, q :: length(p, q) >= 0.0
  }

  ghost predicate TriangleInequality(length: (Point, Point) -> real)
  {
    forall p, q, r :: length(p, r) <= length(p, q) + length(q, r)
  }

  /** `calculate_distance`: the length between the first and the last sample, 0 for fewer
      than two samples. `length` stands for `euclidean_distance`. */
  function CalculateDistance(tr: Track, length: (Point, Point) -> real): (r: real)
    ensures |tr.samples| < 2 ==> r == 0.0
    ensures |tr.samples| >= 2 ==> r == length(PointOf(tr.samples[0]), PointOf(tr.samples[|tr.samples| - 1]))
  {
    if |tr.samples| < 2 then 0.0
    else length(PointOf(tr.samples[0]), PointOf(tr.samples[|tr.samples| - 1]))
  }

  /** The summed lengths of consecutive segments of ss, added in order. */
  function PathLength(ss: seq<Sample>, length: (Point, Point) -> real): (r: real)
    requires NonNegative(length)
    ensures r >= 0.0
    ensures |ss| < 2 ==> r == 0.0
    ensures |ss| >= 2 ==> r >= length(PointOf(ss[|ss| - 2]), PointOf(ss[|ss| - 1]))
  {
    if |ss| < 2 then 0.0
    else PathLength(ss[..|ss| - 1], length) + length(PointOf(ss[|ss| - 2]), PointOf(ss[|ss| - 1]))
  }

  /** `total_distance`: 0 for fewer than two samples and never negative. */
  function TotalDistance(tr: Track, length: (Point, Point) -> real): (r: real)
    requires NonNegative(length)
    ensures r >= 0.0
    ensures |tr.samples| < 2 ==> r == 0.0
  {
    PathLength(tr.samples, length)
  }

  /** For a length obeying the triangle inequality, the start-to-end distance never exceeds
      the distance travelled along the track. */
  lemma {:induction false} StartToEndAtMostPath(ss: seq<Sample>, length: (Point, Point) -> real)
    requires NonNegative(length)
    requires TriangleInequality(length)
    requires |ss| >= 2
    ensures length(PointOf(ss[0]), PointOf(ss[|ss| - 1])) <= PathLength(ss, length)
    decreases |ss|
  {
    if |ss| > 2 {
      var init := ss[..|ss| - 1];
      StartToEndAtMostPath(init, length);
      var a, b, c := PointOf(ss[0]), PointOf(ss[|ss| - 2]), PointOf(ss[|ss| - 1]);
      assert length(a, c) <= length(a, b) + length(b, c);
    }
  }

  lemma CalculateDistanceAtMostTotal(tr: Track, length: (Point, Point) -> real)
    requires NonNegative(length)
    requires TriangleInequality(length)
    ensures CalculateDistance(tr, length) <= TotalDistance(tr, length)
  {
    if |tr.samples| >= 2 {
      StartToEndAtMostPath(tr.samples, length);
    }
  }
}

=== FILE: wrappers.dfy ===
/** Failure-carrying values used across the model: an absent value (Python's None)
    and a computation that either succeeds or raises. */
module Wrappers {

  /** A value that may be absent, the model of a Python `None`. */
  datatype Option<+T> = None | Some(value: T)

  /** The outcome of a computation that may raise instead of returning. */
  datatype Result<+T, +E> = Success(value: T) | Failure(error: E)
}
